=== FILE: README.md ===
# AnkiQuickTags configuration, modelled in Dafny

AnkiQuickTags is an Anki add-on that puts "quick tags" (a tag name with an
optional keyboard shortcut) in the context menu of Anki's review screen and binds their
shortcuts, so a tag can be toggled on the card under review. An overflow
submenu of "other tags" lists the collection's tags that are not quick tags,
capped by a limit.

This project models the add-on's configuration (`addon/src/config.py`) and
the corresponding rules of its two older versions, `anki-quick-tags` and
`ankiquicktags`, as pure functions over decoded JSON:

- `Json` is the decoded document, with Python's truth value, `dict.get`,
  `for ... in`, `in` and `isinstance(v, int)` on it; `Slices` is Python's
  `s[:stop]`; `StrOrder` is Python's `str` order; `Sorting` is a stable sort
  by key, proved equal to every stable sort; `Tags` holds the `Tag` record
  and the filtering and sorting of tag names.
- `Config` is the add-on: reading the `tags` rows (blank rows skipped), the
  name check, the type checks of `other-tags.visible` and
  `other-tags.limit`, the quick-tag list sorted by name, the other-tags list,
  and `reload`, which replaces the document and rebuilds both lists.
  `ConfigProperties` and `ConfigExamples` state what these promise.
- `QuickTagsVariant` is `anki-quick-tags`: its load check on `quick-tags`,
  its additional-tags submenu and its review shortcuts.
- `TagListVariant` is `ankiquicktags`: a flat list of tag names, the
  falsy ones skipped, and its other-tags submenu.
- `VariantsCompared` relates the add-on's other tags to the
  `ankiquicktags` submenu.

Python exceptions become values. `ConfigError` is `Results.ConfigError`
with the failing check as a `Problem`. Any other exception the code would
raise is a `Fault`: `.get` on a non-dict, iterating or using `in` on a
value that supports neither, or slicing with a value that is neither an int
nor `None`. The file read is a
`FileRead` parameter. The host's tag names are a parameter too, and the
add-on also gets whether a collection is open. Menus and shortcut lists are
returned as data.

Where the add-on's docstrings and its code disagree, the model follows the
code:

- The add-on cuts the other tags after `limit + 1` entries
  (`addon/src/config.py:138`), although the docstring of `other_tags_limit`
  (`addon/src/config.py:73`) calls the limit how many other tags to show. So with known tags A, B, C
  and D, quick tag B and limit 2, the other tags are A, C and D, not A
  and C. Both older versions cut after `limit`.
- A limit is not required to be non-negative. A negative limit cuts from the
  end, as a Python slice does, and `true` is accepted as the limit 1.
- The rows live under the key `tags` (`addon/src/helpers.py:53`), although
  the class docstring (`addon/src/config.py:22`) says `quick-tags`.
- The known tags are a list in the host's order, possibly with duplicates,
  not a set. `ConfigProperties.OtherTagsIgnoreHostOrder` shows the result
  does not depend on that order.

## Model

| member | source | states |
|---|---|---|
| Json.Load | addon/src/config.py:77-88 | a decoded file is taken as it is; a missing file and an undecodable file are two distinct configuration errors |
| Json.Field | addon/src/config.py:162-163 | `dict.get` returns the default exactly when the key is absent, and otherwise the value of the key's last occurrence in the document |
| Json.FieldIgnoresDefault | addon/src/config.py:67-69 | when the key is present, the default passed to `get` plays no part |
| Json.Get | addon/src/config.py:160 | `.get` succeeds exactly on a dict, raises an attribute error otherwise, and yields the value stored under a present key (its last occurrence) or the default for an absent key |
| Json.Iterate | addon/src/config.py:160 | iteration succeeds exactly on a list, string or dict: a list yields its items, a string each character as a one-character string, a dict each distinct key once, in the order of first occurrence; anything else raises |
| Json.Keys | ankiquicktags/src/__init__.py:106 | the keys of a decoded dict are exactly the keys in the document, each once, no more of them than members |
| Json.KeysPrefix | ankiquicktags/src/__init__.py:106 | a key keeps the position of its first occurrence: the keys of a prefix of the document are a prefix of its keys |
| Json.IterateKeys | ankiquicktags/src/__init__.py:106 | iterating a dict yields a string exactly for each key present, without repeats |
| Json.Contains | addon/src/config.py:137 | `t in v` is list membership by equality, a substring test on a string, a key test on a dict, and raises on anything else |
| Json.IsSubstringAt | anki-quick-tags/src/__init__.py:78 | the substring test used by `in` on a string holds exactly when the string has a slice equal to the tested one at some index |
| Slices.SliceTo | addon/src/config.py:138 | `s[:stop]` is a prefix of `s`: `stop` elements when `0 <= stop`, all of them when `stop` is too large, and `stop` fewer than all when `stop` is negative, never less than none |
| Slices.SliceBy | anki-quick-tags/src/__init__.py:125 | slicing with a configured value succeeds exactly for an int, a bool or `None`; `None` keeps everything; any other value raises |
| Slices.SliceByInt | ankiquicktags/src/__init__.py:119 | a non-negative int bound keeps the first `n` elements, or all when there are fewer |
| Sorting.SortBy | addon/src/config.py:123 | the sort's result is ordered by key and is a permutation of its input |
| Sorting.SortByStable | addon/src/config.py:123 | elements with equal keys keep their input order |
| Sorting.StableSortIsUnique | addon/src/config.py:148 | two key-ordered sequences that agree on the elements of every key, in order, are equal |
| Sorting.StableSortCharacterized | addon/src/config.py:123 | a sequence is a stable sort of the input exactly when it equals `SortBy`'s result, so `SortBy` stands for Python's `list.sort` |
| Sorting.SortBySorted | addon/src/config.py:148 | sorting an already ordered sequence leaves it unchanged |
| Tags.Names | addon/src/config.py:134 | the quick-tag names are the tags' names, one per tag, in order |
| Tags.SortStrings | addon/src/config.py:137 | `sorted` on strings returns an ordered permutation of its input |
| Tags.SortStringsMembers | anki-quick-tags/src/__init__.py:66 | sorting keeps exactly the strings it was given |
| Tags.Without | addon/src/config.py:137 | a string survives the filter exactly when it is in the list and not among the names |
| Tags.WithoutCounts | addon/src/config.py:137 | the filter drops every copy of a listed name and keeps every copy of any other string |
| Tags.SortStringsByCount | addon/src/config.py:137 | the sorted list depends only on how often each string occurs, not on the input order |
| Tags.StringItems | ankiquicktags/src/__init__.py:66 | the strings of a configured list are exactly its string items |
| Tags.Unlisted | anki-quick-tags/src/__init__.py:78 | the comprehension with Python's `in` succeeds exactly when there is nothing to test or the container supports `in`; a string is kept exactly when `in` says it is absent; for a list, the kept strings are those not among the list's strings |
| Tags.SortedWithout | anki-quick-tags/src/__init__.py:78 | filtering the sorted tags and then sorting gives the same as filtering the tags in host order and sorting |
| Config.TagRows | addon/src/config.py:160 | the rows can only be read from a dict document; without a `tags` key there are no rows; a `tags` list gives its items as the rows; a non-dict document raises an attribute error and a `tags` that cannot be iterated a type error, neither of them a configuration error |
| Config.CheckNames | addon/src/config.py:93-95 | the name check passes exactly when every row is blank or has a non-empty name; otherwise the first failing row decides the error: a missing-name error, or an attribute error for a non-dict row |
| Config.VisibleValue | addon/src/config.py:63-69 | reading `visible` succeeds exactly when the document and its `other-tags` section (`{}` when absent) are dicts, raises an attribute error otherwise, and gives the present value or `true` |
| Config.LimitValue | addon/src/config.py:71-75 | reading `limit` succeeds exactly when the document and its `other-tags` section are dicts, raises an attribute error otherwise, and gives the present value or 10 |
| Config.Validate | addon/src/config.py:90-107 | validation succeeds exactly when the rows read, the name check passes, `visible` reads as a bool and `limit` as an int (bools included); the settings are those two values; a failure reports the first failing step: the row-reading fault, the name check's error, an attribute error for a non-dict `other-tags`, the visible-type error, or else the limit-type error |
| ConfigProperties.ValidSettingsAccepted | addon/src/config.py:90-107 | with names in order, a `visible` absent or a bool and a `limit` absent or an int are accepted with exactly those values, `true` and 10 when absent |
| Config.Yielded | addon/src/config.py:160-168 | no more pairs than rows, and no yielded pair has both a falsy name and a falsy shortcut |
| Config.TagsInOrder | addon/src/config.py:114-121 | one tag per yielded row, in row order, holding the row's name and shortcut |
| Config.ResortAfterEach | addon/src/config.py:114-123 | appending each tag and re-sorting by name at once ends with the same list as one stable sort of all the tags |
| Config.SortByAppendLast | addon/src/config.py:123 | sorting the list first and then sorting it with one more tag appended equals sorting all of them once |
| Config.QuickTags | addon/src/config.py:109-123 | the quick tags are built exactly when the rows read and every yielded name is a string; they are one tag per yielded row, a stable sort by name of the rows' tags |
| Config.OtherTags | addon/src/config.py:125-148 | the other tags are the known tags that are not quick-tag names, sorted and cut to `limit + 1`, each with the empty shortcut; the final sort changes nothing; every one is a known tag and not a quick-tag name |
| Config.Untagged | addon/src/config.py:140-146 | each other tag gets the name in order and the empty shortcut |
| Config.Reload | addon/src/config.py:43-49 | a reload replaces the document before any check; it succeeds exactly when the source loads, validates and builds; a failure keeps both lists; without a collection the other tags are kept; on success the lists are the ones built from the new document; a failure after loading reports validation's error, or else the quick-tag build's |
| Config.New | addon/src/config.py:40-41 | construction succeeds exactly when the first reload does and otherwise raises that reload's error; without a collection the other tags start out empty |
| ConfigProperties.BlankRowIgnored | addon/src/config.py:160-168 | inserting a row with no name and no shortcut anywhere changes neither the name check nor the yielded rows |
| ConfigProperties.NamelessRowRejected | addon/src/config.py:93-95 | a dict row with a shortcut but a missing or empty name, after rows that pass, makes the name check fail with the missing-name error |
| ConfigProperties.YieldedKeptRow | addon/src/config.py:160-168 | a row that is a dict and not blank yields its name and shortcut ahead of what the following rows yield |
| ConfigProperties.YieldedFromKeptRows | addon/src/config.py:160-168 | every yielded name and shortcut pair comes from a dict row that is not blank |
| ConfigProperties.YieldedNamesPresent | addon/src/config.py:93-95 | after a passing name check, every yielded name is non-empty |
| ConfigProperties.NamesCheckedFirst | addon/src/config.py:90-107 | when the name check fails, its error is the validation error, whatever the `other-tags` settings hold |
| ConfigProperties.DefaultsApply | addon/src/config.py:63-75 | without an `other-tags` section a document with good names validates to visible and limit 10, and the two properties read those defaults |
| ConfigProperties.VisibleMustBeBool | addon/src/config.py:97-101 | a `visible` setting that is present and not a bool makes validation fail with the visible-type error |
| ConfigProperties.LimitMustBeInt | addon/src/config.py:103-107 | with a valid `visible`, a `limit` that is not an int fails with the limit-type error, and `true` is accepted as the limit 1 |
| ConfigProperties.QuickTagsAreSortedRows | addon/src/config.py:109-123 | after validation the quick tags are one tag per non-blank row, each with a non-empty name, and are a stable sort by name of the rows' tags |
| ConfigProperties.OtherTagsCount | addon/src/config.py:138 | the list holds `limit + 1` tags or all remaining ones if fewer; a negative limit below -1 drops that many minus one from the end |
| ConfigProperties.OtherTagsAreFirst | addon/src/config.py:137-138 | no remaining known tag that was cut off sorts before one that was kept |
| ConfigProperties.OtherTagsIgnoreHostOrder | addon/src/config.py:136-137 | the other tags do not depend on the order in which the host lists its tags |
| ConfigProperties.ReloadIdempotent | addon/src/config.py:43-49 | reloading a second time from the same source leaves the state of the first reload, whether it succeeded or failed |
| ConfigProperties.ReloadReplacesLists | addon/src/config.py:43-49 | whether a reload succeeds does not depend on the state before it; after a successful reload with a collection open, neither does the new state |
| ConfigProperties.ReloadedSettings | addon/src/config.py:63-75 | after a successful reload the two properties read back the validated settings |
| ConfigExamples.ValidConfig | tests/test_config.py:8-32 | the test's valid document validates to visible and limit 10, and its quick tags are Tag01, Tag02 and Tag03 with their shortcuts, in that order (`tests/conftest.py:7-12`) |
| ConfigExamples.MissingName | tests/test_config.py:35-46 | a row with a shortcut and no name is rejected with the missing-name error |
| ConfigExamples.BlankName | tests/test_config.py:49-60 | a row with a shortcut and an empty name is rejected with the missing-name error |
| ConfigExamples.InvalidVisible | tests/test_config.py:63-71 | the string `"true"` as `visible` is rejected with the visible-type error |
| ConfigExamples.InvalidLimit | tests/test_config.py:74-82 | the string `"10"` as `limit` is rejected with the limit-type error |
| QuickTagsVariant.CheckItems | anki-quick-tags/src/__init__.py:39-44 | the item check passes exactly when every item is a dict with a truthy name, blank items included; the first failing item decides the error |
| QuickTagsVariant.LoadConfig | anki-quick-tags/src/__init__.py:24-46 | loading succeeds exactly when the file decodes to a dict whose `quick-tags` is present, iterable and passes the item check; the document is kept unchanged; a missing file, an undecodable file and a missing `quick-tags` are configuration errors; after decoding, a non-dict document raises an attribute error, a `quick-tags` that cannot be iterated a type error, and a failing item the item check's error: the missing-name configuration error, or an attribute error for a non-dict item |
| QuickTagsVariant.AdditionalLimit | anki-quick-tags/src/__init__.py:52-54 | reading the limit succeeds exactly on a dict configuration, raises an attribute error otherwise, and gives the present value or 10 |
| QuickTagsVariant.QuickTagsList | anki-quick-tags/src/__init__.py:72-74 | reading the quick-tag list succeeds exactly on a dict configuration, raises an attribute error otherwise, and gives the present value or the empty list |
| QuickTagsVariant.ShowAdditional | anki-quick-tags/src/__init__.py:48-50 | the submenu is shown exactly when the raw `additional-tags` value is truthy, `true` when absent |
| QuickTagsVariant.AdditionalTags | anki-quick-tags/src/__init__.py:76-78 | the additional tags are in sorted order and all are known tags |
| QuickTagsVariant.MenuNames | anki-quick-tags/src/__init__.py:113-115 | one entry per quick-tag item, its `name` or `None`, in configuration order; a non-dict item raises |
| QuickTagsVariant.ContextMenu | anki-quick-tags/src/__init__.py:103-131 | outside review nothing is added; in review the entries are the items' names, the submenu appears exactly when shown, and it is the additional tags cut by the raw limit; in review the hook succeeds (apart from `_create_menu_action`, which is left out) exactly when `quick-tags` can be read and iterated, every item is a dict, and the submenu is hidden or the limit is an int or `None`, so a loaded `{}` or `""` renders |
| QuickTagsVariant.ItemBindings | anki-quick-tags/src/__init__.py:142-155 | a dict item binds its name to its shortcut exactly when the shortcut is truthy; a non-dict raises |
| QuickTagsVariant.Bindings | anki-quick-tags/src/__init__.py:142-155 | binding succeeds exactly when every item is a dict; there is at most one binding per item and every bound shortcut is truthy |
| QuickTagsVariant.Shortcuts | anki-quick-tags/src/__init__.py:135-155 | outside review nothing is bound; in review the bindings are those of the quick-tag items, and binding succeeds exactly when `quick-tags` can be read and iterated and every item is a dict |
| QuickTagsVariantProperties.SettingsDefaults | anki-quick-tags/src/__init__.py:48-54 | the display settings are not type-checked: absent, they default to shown and 10; present, the raw value is used |
| QuickTagsVariantProperties.LoadedQuickTags | anki-quick-tags/src/__init__.py:34-46 | after a successful load `quick-tags` is a list of dicts with truthy names, or one of the empty iterables `""` and `{}` |
| QuickTagsVariantProperties.LoadedKeepsKnownTags | anki-quick-tags/src/__init__.py:76-78 | after a successful load the additional tags can be computed and keep every non-empty known tag, because a string is never found among the quick-tag dicts |
| QuickTagsVariantProperties.AdditionalTagsAreAllTags | anki-quick-tags/src/__init__.py:76-78 | when `quick-tags` is a list, the additional tags are all known tags, sorted |
| QuickTagsVariantProperties.LoadedMenu | anki-quick-tags/src/__init__.py:113-131 | a loaded list gives one truthy name per item in order; the submenu is the sorted known tags cut by the limit; the hook raises only for a limit that is neither an int nor `None` |
| QuickTagsVariantProperties.BindingsAppend | anki-quick-tags/src/__init__.py:142-155 | the bindings of two runs of items are those of the first followed by those of the second, so they follow configuration order |
| QuickTagsVariantProperties.BindingsFromItems | anki-quick-tags/src/__init__.py:144-155 | every binding is some item's truthy shortcut paired with that item's name |
| QuickTagsVariantProperties.LoadedShortcuts | anki-quick-tags/src/__init__.py:135-155 | in review a loaded list binds without raising, and every bound tag has a truthy name and shortcut |
| TagListVariant.LoadConfig | ankiquicktags/src/__init__.py:24-34 | any decoded document is accepted, whatever its shape; only a missing or undecodable file is an error |
| TagListVariant.OtherLimit | ankiquicktags/src/__init__.py:40-42 | reading the limit succeeds exactly on a dict configuration, raises an attribute error otherwise, and gives the present value or 10 |
| TagListVariant.ConfiguredTags | ankiquicktags/src/__init__.py:60-62 | reading the tag list succeeds exactly on a dict configuration, raises an attribute error otherwise, and gives the present value or the empty list |
| TagListVariant.ShowOther | ankiquicktags/src/__init__.py:36-38 | the submenu is shown exactly when the raw `show-other-tags` value is truthy, `true` when absent |
| TagListVariant.OtherTags | ankiquicktags/src/__init__.py:64-66 | the other tags are in sorted order and all are known tags |
| TagListVariant.KeepTruthy | ankiquicktags/src/__init__.py:106-113 | a configured entry appears in the menu exactly when it is truthy |
| TagListVariant.ContextMenu | ankiquicktags/src/__init__.py:96-125 | outside review nothing is added; in review the entries are the truthy configured tags, the submenu appears exactly when shown, and it is the other tags cut by the raw limit; in review the hook succeeds (apart from `_create_menu_action`, which is left out) exactly when `tags` can be read and iterated and the submenu is hidden or the limit is an int or `None`, so a string `tags` shows one entry per character |
| TagListVariantProperties.SettingsDefaults | ankiquicktags/src/__init__.py:36-42 | the settings are not type-checked: absent, they default to shown and 10; present, the raw value is used |
| TagListVariantProperties.OtherTagsOfList | ankiquicktags/src/__init__.py:52-66 | with a configured list, the other tags are the known tags not among its strings, sorted |
| TagListVariantProperties.OtherTagsMembership | ankiquicktags/src/__init__.py:64-66 | a string is an other tag exactly when it is a known tag and the configured list does not hold it |
| TagListVariantProperties.KeepTruthyAppend | ankiquicktags/src/__init__.py:106-113 | the menu entries of two runs of configured tags are those of the first followed by those of the second, so configuration order is kept |
| TagListVariantProperties.KeepTruthyOne | ankiquicktags/src/__init__.py:108-109 | a single configured tag is shown exactly when it is truthy |
| TagListVariantProperties.SubmenuIsFirstLimit | ankiquicktags/src/__init__.py:115-119 | with a list and a limit `n >= 0`, the menu shows the truthy tags and the first `n` other tags in sorted order |
| TagListVariantProperties.OtherTagsCut | ankiquicktags/src/__init__.py:119 | the other tags cut at `n >= 0` are the first `n` of the sorted, filtered known tags |
| TagListVariantProperties.DuplicateKeyShownOnce | ankiquicktags/src/__init__.py:106-113 | a `tags` dict whose key occurs twice in the file shows that key once |
| TagListVariantProperties.EmptyConfigMenu | ankiquicktags/src/__init__.py:36-42 | an empty configuration shows no configured tags and the first ten known tags, sorted |
| VariantsCompared.AddonKeepsOneMore | addon/src/config.py:136-138 | for the same tags and limit `n >= 0`, the `ankiquicktags` submenu is a prefix of the add-on's other tags, and is one name shorter whenever more than `n` tags remain |

## Left out

- File opening and `json.load` are not modelled: a `FileRead` says whether the file was missing, undecodable or decoded. Error messages become `Problem` values. Other read failures, such as a permission error, a directory in place of the file or bytes that are not valid text, escape `_load` (`addon/src/config.py:83-86`, `anki-quick-tags/src/__init__.py:29-32`) as exceptions that are not `ConfigError`s; `FileRead` has no case for them.
- The host's tag query (`aqt.mw.col.tags.all()`) and the "is a collection open" test are parameters.
- `addon/src/addon.py` is not part of this model: Qt menus, `QAction` wiring, hook registration and toggling tags on notes. The same holds for the older versions' `_create_menu_action`, `action__toggle_tag`, `_reviewer`, `_note`, `_note_tags` and `setup` registration. Their menus and shortcut lists are returned as data instead.
- QuickTagsVariant.ContextMenu, QuickTagsVariant.Shortcuts and TagListVariant.ContextMenu: Python adds menu entries and registers shortcuts one at a time, so an exception part-way leaves the earlier ones in place. The model returns the whole menu or binding list, or only the error.
- The host accessors and UI helpers in `addon/src/helpers.py` are not modelled; only its key names and defaults are used.
- The entry points (`addon/__init__.py`, `anki-quick-tags/__init__.py`) and the pytest fixtures (`tests/conftest.py`) are not modelled.
- The lists are class attributes in `addon/src/config.py:36-38`, shared between instances and cleared in place. That is a Python artefact; the model's `Store` is a value.
- Config.QuickTags: it succeeds only when every yielded name is a string; that restriction belongs to the model, as the `Config.TagsInOrder` line below explains.
- Config.TagsInOrder: a row whose name is truthy but not a string (a number, a list) is rejected with `Fault(UnmodelledName)`. Python would keep it in the `Tag` and might fail only when sorting compares it with another name: with a string, or with a name of another incomparable type (an int and a list). Such documents are outside the model.
- Config.Yielded: its own contract says that no pair is blank; that each pair comes from a row is stated by `ConfigProperties.YieldedFromKeptRows`.
- Config.Reload: Python clears a list before rebuilding it. The model builds the new list in one step. So it does not show the half-built lists that an exception in the middle of a build would leave; with string names, no such exception occurs.
- Json.Json: a JSON number with a fraction is a `real`, and `NaN` and `Infinity` are not represented. Integers are unbounded, as in Python.
- Json.Json: a string is a sequence of Dafny `char`s, so an unpaired surrogate escape such as `"\ud800"`, which `json.load` accepts, has no counterpart.
- QuickTagsVariant.AdditionalTags: its own contract gives only order and origin. The exact list is stated by `QuickTagsVariantProperties.AdditionalTagsAreAllTags` for a list `quick-tags`, and by `Tags.Unlisted` in general.
- TagListVariant.OtherTags: likewise, the exact list is stated by `TagListVariantProperties.OtherTagsOfList`.
- The `errors` modules of the older versions are not part of this model: their `ConfigError` is `Results.ConfigError`.

=== FILE: config.dfy ===
/** The add-on's configuration (`addon/src/config.py`): reading the quick-tag
    rows, validating them and the `other-tags` settings, building the
    quick-tag list sorted by name and the list of other tags.

    The file read and the host's tag query are parameters: `FileRead` says
    what reading and decoding the file produced, and `Host` says whether a
    collection is open and which tag names it knows.
 */
module Config {
  import opened Results
  import opened StrOrder
  import opened Sorting
  import opened Json
  import opened Slices
  import opened Tags

  // Keys and defaults of the configuration document.
  const TagsKey := "tags"
  const NameKey := "name"
  const ShortcutKey := "shortcut"
  const OtherTagsKey := "other-tags"
  const VisibleKey := "visible"
  const LimitKey := "limit"
  const DefaultVisible := true
  const DefaultLimit := 10

  /** Whether the host has a main window with an open collection, and if so
      the names of all tags it knows, in the order it lists them. */
  datatype Host = NoCollection | Collection(tags: seq<string>)

  /** The validated `other-tags` settings. */
  datatype Settings = Settings(visible: bool, limit: int)

  /** One element of the `tags` list as the row iterator sees it: a row with
      its name and shortcut (each defaulting to `""`), a row with neither,
      or something that is not a dict. */
  datatype Row = Kept(name: Json, shortcut: Json) | Blank | NotMapping

  function ReadRow(v: Json): Row {
    match v
    case JObject(members) =>
      var name := Field(members, NameKey, JString(""));
      var shortcut := Field(members, ShortcutKey, JString(""));
      if !Truthy(name) && !Truthy(shortcut) then Blank else Kept(name, shortcut)
    case _ => NotMapping
  }

  /** The elements of `data.get("tags", [])`. */
  function TagRows(data: Json): (r: Result<seq<Json>>)
    ensures r.Ok? ==> data.JObject?
    ensures data.JObject? && !HasKey(data.members, TagsKey) ==> r == Ok([])
    ensures data.JObject? && Field(data.members, TagsKey, JNull).JArray? ==>
      r == Ok(Field(data.members, TagsKey, JNull).items)
    ensures r.Err? ==> r.error == (if data.JObject? then Fault(IterationFault) else Fault(AttributeFault))
  {
    var tags :- Get(data, TagsKey, JArray([]));
    Iterate(tags)
  }

  /** A row the name check lets through: skipped, or with a non-empty name. */
  predicate RowPasses(v: Json) {
    match ReadRow(v)
    case Blank => true
    case Kept(name, _) => Truthy(name)
    case NotMapping => false
  }

  /** What a row the name check stops at raises. */
  function RowError(v: Json): Error {
    if ReadRow(v).NotMapping? then Fault(AttributeFault) else ConfigError(NameRequired)
  }

  /** The name check: the rows are read in order and the first one that is
      not a dict, or has a shortcut but no name, decides the error. */
  function CheckNames(rows: seq<Json>): (r: Outcome)
    ensures r.Pass? <==> forall i | 0 <= i < |rows| :: RowPasses(rows[i])
    ensures r.Fail? ==>
      exists i | 0 <= i < |rows| ::
        && !RowPasses(rows[i])
        && r.error == RowError(rows[i])
        && forall j | 0 <= j < i :: RowPasses(rows[j])
  {
    if |rows| == 0 then Pass
    else
      var rest := CheckNames(rows[1..]);
      assert forall j | 1 <= j < |rows| :: rows[j] == rows[1..][j - 1];
      match ReadRow(rows[0])
      case NotMapping => Fail(Fault(AttributeFault))
      case Blank => rest
      case Kept(name, _) => if Truthy(name) then rest else Fail(ConfigError(NameRequired))
  }

  /** `data.get("other-tags", {})`. */
  function Section(data: Json): Result<Json> {
    Get(data, OtherTagsKey, JObject([]))
  }

  /** The `other_tags_are_visible` property: the raw value, `true` when
      absent; `.get` raises when the document or its `other-tags` entry is
      not a dict. */
  function VisibleValue(data: Json): (r: Result<Json>)
    ensures r.Ok? <==> data.JObject? && Field(data.members, OtherTagsKey, JObject([])).JObject?
    ensures r.Err? ==> r.error == Fault(AttributeFault)
    ensures r.Ok? ==>
      var section := Field(data.members, OtherTagsKey, JObject([])).members;
      r.value == if HasKey(section, VisibleKey) then Field(section, VisibleKey, JNull) else JBool(DefaultVisible)
  {
    var section :- Section(data);
    if section.JObject? && HasKey(section.members, VisibleKey) then
      FieldIgnoresDefault(section.members, VisibleKey, JNull, JBool(DefaultVisible));
      Get(section, VisibleKey, JBool(DefaultVisible))
    else
      Get(section, VisibleKey, JBool(DefaultVisible))
  }

  /** The `other_tags_limit` property: the raw value, `10` when absent;
      `.get` raises when the document or its `other-tags` entry is not a
      dict. */
  function LimitValue(data: Json): (r: Result<Json>)
    ensures r.Ok? <==> data.JObject? && Field(data.members, OtherTagsKey, JObject([])).JObject?
    ensures r.Err? ==> r.error == Fault(AttributeFault)
    ensures r.Ok? ==>
      var section := Field(data.members, OtherTagsKey, JObject([])).members;
      r.value == if HasKey(section, LimitKey) then Field(section, LimitKey, JNull) else JInt(DefaultLimit)
  {
    var section :- Section(data);
    if section.JObject? && HasKey(section.members, LimitKey) then
      FieldIgnoresDefault(section.members, LimitKey, JNull, JInt(DefaultLimit));
      Get(section, LimitKey, JInt(DefaultLimit))
    else
      Get(section, LimitKey, JInt(DefaultLimit))
  }

  /** Validation: names first, then the type of `visible`, then that of `limit`. */
  function Validate(data: Json): (r: Result<Settings>)
    ensures r.Ok? <==>
      && TagRows(data).Ok? && CheckNames(TagRows(data).value).Pass?
      && VisibleValue(data).Ok? && VisibleValue(data).value.JBool?
      && LimitValue(data).Ok? && IsPyInt(LimitValue(data).value)
    ensures r.Ok? ==> TagRows(data).Ok? && CheckNames(TagRows(data).value).Pass?
    ensures r.Ok? ==> VisibleValue(data) == Ok(JBool(r.value.visible))
    ensures r.Ok? ==> LimitValue(data).Ok? && IsPyInt(LimitValue(data).value)
                      && PyInt(LimitValue(data).value) == r.value.limit
    ensures r.Err? ==>
      r.error == (if TagRows(data).Err? then TagRows(data).error
                  else if CheckNames(TagRows(data).value).Fail? then CheckNames(TagRows(data).value).error
                  else if VisibleValue(data).Err? then Fault(AttributeFault)
                  else if !VisibleValue(data).value.JBool? then ConfigError(VisibleNotBool)
                  else ConfigError(LimitNotInt))
  {
    var rows :- TagRows(data);
    :- CheckNames(rows);
    // `data` is a dict here, but its `other-tags` entry need not be.
    var section := Field(data.members, OtherTagsKey, JObject([]));
    var visible :- Get(section, VisibleKey, JBool(DefaultVisible));
    if !visible.JBool? then Err(ConfigError(VisibleNotBool))
    else
      var limit := Field(section.members, LimitKey, JInt(DefaultLimit));
      if !IsPyInt(limit) then Err(ConfigError(LimitNotInt))
      else Ok(Settings(visible.b, PyInt(limit)))
  }

  /** The (name, shortcut) pairs the row iterator yields: blank rows are
      skipped. Only meaningful for rows that passed the name check. */
  function Yielded(rows: seq<Json>): (r: seq<(Json, Json)>)
    ensures |r| <= |rows|
    ensures forall p | p in r :: Truthy(p.0) || Truthy(p.1)
  {
    if |rows| == 0 then []
    else
      match ReadRow(rows[0])
      case Kept(name, shortcut) => [(name, shortcut)] + Yielded(rows[1..])
      case _ => Yielded(rows[1..])
  }

  /** One `Tag` per yielded pair, in order. A name that is not a string is
      outside the model. */
  function TagsInOrder(pairs: seq<(Json, Json)>): (r: Result<seq<Tag>>)
    ensures r.Ok? <==> forall i | 0 <= i < |pairs| :: pairs[i].0.JString?
    ensures r.Ok? ==> |r.value| == |pairs|
    ensures r.Ok? ==> forall i | 0 <= i < |pairs| ::
      JString(r.value[i].name) == pairs[i].0 && r.value[i].shortcut == pairs[i].1
    ensures r.Err? ==> r.error == Fault(UnmodelledName)
  {
    if |pairs| == 0 then Ok([])
    else
      var (name, shortcut) := pairs[0];
      if !name.JString? then Err(Fault(UnmodelledName))
      else
        var rest :- TagsInOrder(pairs[1..]);
        Ok([Tag(name.s, shortcut)] + rest)
  }

  /** The quick-tag loop: each tag is appended and the list re-sorted by name
      at once. That gives the same list as one stable sort at the end. */
  function ResortAfterEach(tags: seq<Tag>): (r: seq<Tag>)
    ensures r == SortBy(tags, Name)
  {
    if |tags| == 0 then []
    else
      var init, last := tags[..|tags| - 1], tags[|tags| - 1];
      var sofar := ResortAfterEach(init);
      SortBySorted(sofar, Name);
      assert sofar + [last] == SortBy(init, Name) + [last];
      SortByAppendLast(init, last, Name);
      SortBy(sofar + [last], Name)
  }

  /** Sorting `xs + [x]` inserts `x` into the sorted `xs`, so sorting `xs`
      first changes nothing. */
  lemma SortByAppendLast<T>(xs: seq<T>, x: T, key: T -> string)
    ensures SortBy(SortBy(xs, key) + [x], key) == SortBy(xs + [x], key)
  {
    var s := SortBy(xs, key);
    SortBySorted(s, key);
    assert (s + [x])[..|s|] == s;
    assert (xs + [x])[..|xs|] == xs;
  }

  /** The quick-tag list `_build_quick_tags` leaves behind. */
  function QuickTags(data: Json): (r: Result<seq<Tag>>)
    ensures r.Ok? ==> data.JObject?
    ensures r.Ok? <==> TagRows(data).Ok? && TagsInOrder(Yielded(TagRows(data).value)).Ok?
    ensures r.Ok? ==> |r.value| == |Yielded(TagRows(data).value)|
    ensures r.Ok? ==> IsStableSortOf(r.value, TagsInOrder(Yielded(TagRows(data).value)).value, Name)
  {
    var rows :- TagRows(data);
    var tags :- TagsInOrder(Yielded(rows));
    var sorted := ResortAfterEach(tags);
    StableSortCharacterized(sorted, tags, Name);
    Ok(sorted)
  }

  /** The other-tags list `_build_other_tags` leaves behind: the host's tags
      that are not quick-tag names, sorted, cut to the first `limit + 1`, each
      with an empty shortcut, then sorted by name once more. That last sort
      finds the list already in order and changes nothing. */
  function OtherTags(all: seq<string>, quickNames: seq<string>, limit: int): (r: seq<Tag>)
    ensures r == Untagged(SliceTo(SortStrings(Without(all, quickNames)), limit + 1))
    ensures SortedBy(r, Name)
    ensures forall i | 0 <= i < |r| :: r[i].shortcut == JString("")
    ensures forall i | 0 <= i < |r| :: r[i].name in all && r[i].name !in quickNames
  {
    var cut := SliceTo(SortStrings(Without(all, quickNames)), limit + 1);
    UntaggedCutSorted(SortStrings(Without(all, quickNames)), limit + 1);
    CutNamesKept(all, quickNames, cut);
    SortBy(Untagged(cut), Name)
  }

  /** A cut of a sorted list of names, untagged, is already in name order. */
  lemma UntaggedCutSorted(kept: seq<string>, stop: int)
    requires forall i, j | 0 <= i < j < |kept| :: LessEq(kept[i], kept[j])
    ensures SortedBy(Untagged(SliceTo(kept, stop)), Name)
    ensures SortBy(Untagged(SliceTo(kept, stop)), Name) == Untagged(SliceTo(kept, stop))
  {
    var cut := SliceTo(kept, stop);
    assert forall i | 0 <= i < |cut| :: cut[i] == kept[i];
    assert SortedBy(Untagged(cut), Name);
    SortBySorted(Untagged(cut), Name);
  }

  /** A cut of the sorted unlisted names holds host tags that are not
      quick-tag names. */
  lemma CutNamesKept(all: seq<string>, quickNames: seq<string>, cut: seq<string>)
    requires cut <= SortStrings(Without(all, quickNames))
    ensures forall i | 0 <= i < |cut| :: cut[i] in all && cut[i] !in quickNames
  {
    var kept := SortStrings(Without(all, quickNames));
    SortStringsMembers(Without(all, quickNames));
    forall i | 0 <= i < |cut|
      ensures cut[i] in kept
    {
      assert cut[i] == kept[i];
    }
  }

  /** A tag without a shortcut for each name. */
  function Untagged(names: seq<string>): (r: seq<Tag>)
    ensures |r| == |names|
    ensures forall i | 0 <= i < |names| :: r[i] == Tag(names[i], JString(""))
  {
    seq(|names|, i requires 0 <= i < |names| => Tag(names[i], JString("")))
  }

  /** The configuration object: the raw document and the two built lists. */
  datatype Store = Store(data: Json, quickTags: seq<Tag>, otherTags: seq<Tag>)

  /** The state before the first reload: an empty document and empty lists. */
  const Initial := Store(JObject([]), [], [])

  datatype Reloaded = Reloaded(store: Store, outcome: Outcome)

  /** The document a reload works on: the given data, or, when `data` is
      `None`, the file. */
  function Source(data: Json, file: FileRead): Result<Json> {
    if data.JNull? then Load(file) else Ok(data)
  }

  /** `reload`: the document replaces the stored one before it is validated;
      the quick tags are rebuilt next, and the other tags only when a
      collection is open. A failure leaves both lists as they were. */
  function Reload(s: Store, data: Json, file: FileRead, host: Host): (r: Reloaded)
    ensures Source(data, file).Err? ==> r == Reloaded(s, Fail(Source(data, file).error))
    ensures Source(data, file).Ok? ==> r.store.data == Source(data, file).value
    ensures r.outcome.Fail? ==> r.store.quickTags == s.quickTags && r.store.otherTags == s.otherTags
    ensures host.NoCollection? ==> r.store.otherTags == s.otherTags
    ensures r.outcome.Pass? <==>
      Source(data, file).Ok?
      && Validate(Source(data, file).value).Ok?
      && QuickTags(Source(data, file).value).Ok?
    ensures Source(data, file).Ok? && r.outcome.Fail? ==>
      var doc := Source(data, file).value;
      if Validate(doc).Err? then r.outcome.error == Validate(doc).error
      else QuickTags(doc).Err? && r.outcome.error == QuickTags(doc).error
    ensures r.outcome.Pass? ==>
      var doc := Source(data, file).value;
      && r.store.quickTags == QuickTags(doc).value
      && (host.Collection? ==>
            r.store.otherTags
            == OtherTags(host.tags, Names(r.store.quickTags), Validate(doc).value.limit))
  {
    match Source(data, file)
    case Err(e) => Reloaded(s, Fail(e))
    case Ok(doc) =>
      var loaded := s.(data := doc);
      match Validate(doc)
      case Err(e) => Reloaded(loaded, Fail(e))
      case Ok(settings) =>
        match QuickTags(doc)
        case Err(e) => Reloaded(loaded, Fail(e))
        case Ok(quick) =>
          var built := loaded.(quickTags := quick);
          match host
          case NoCollection => Reloaded(built, Pass)
          case Collection(all) =>
            Reloaded(built.(otherTags := OtherTags(all, Names(quick), settings.limit)), Pass)
  }

  /** `Config(data)`: a first reload, whose failure is raised to the caller. */
  function New(data: Json, file: FileRead, host: Host): (r: Result<Store>)
    ensures r.Ok? <==> Reload(Initial, data, file, host).outcome.Pass?
    ensures r.Ok? && host.NoCollection? ==> r.value.otherTags == []
    ensures r.Err? ==> r.error == Reload(Initial, data, file, host).outcome.error
  {
    var reloaded := Reload(Initial, data, file, host);
    match reloaded.outcome
    case Pass => Ok(reloaded.store)
    case Fail(e) => Err(e)
  }

  /** `other_tags_are_visible` read from the stored document. */
  function OtherTagsAreVisible(s: Store): Result<Json> {
    VisibleValue(s.data)
  }

  /** `other_tags_limit` read from the stored document. */
  function OtherTagsLimit(s: Store): Result<Json> {
    LimitValue(s.data)
  }
}

=== FILE: config_examples.dfy ===
/** The add-on's configuration on the documents of its own test suite
    (`tests/test_config.py`): the valid one and the four it rejects. */
module ConfigExamples {
  import opened Results
  import opened Json
  import opened StrOrder
  import opened Sorting
  import opened Tags
  import opened Config
  import ConfigProperties

  function QuickTagRow(name: string, shortcut: string): Json {
    JObject([(NameKey, JString(name)), (ShortcutKey, JString(shortcut))])
  }

  /** The valid document: three named rows with shortcuts, shown other
      tags and the limit 10. */
  const ValidRows := [QuickTagRow("Tag01", "Ctrl+1"), QuickTagRow("Tag02", "Ctrl+2"), QuickTagRow("Tag03", "Ctrl+3")]
  const ValidSection := JObject([(VisibleKey, JBool(true)), (LimitKey, JInt(10))])
  const ValidDoc := JObject([(TagsKey, JArray(ValidRows)), (OtherTagsKey, ValidSection)])

  /** The tags the test expects, in this order. */
  const ExpectedTags := [Tag("Tag01", JString("Ctrl+1")), Tag("Tag02", JString("Ctrl+2")), Tag("Tag03", JString("Ctrl+3"))]

  /** A row built by `QuickTagRow` yields its name and shortcut. */
  lemma QuickTagRowRead(name: string, shortcut: string)
    requires name != "" || shortcut != ""
    ensures ReadRow(QuickTagRow(name, shortcut)) == Kept(JString(name), JString(shortcut))
  {
    var m := [(NameKey, JString(name)), (ShortcutKey, JString(shortcut))];
    assert NameKey[0] != ShortcutKey[0];
    assert m[..1] == [(NameKey, JString(name))];
    assert Field(m, NameKey, JString("")) == JString(name);
  }

  /** The valid document's rows are the three rows. */
  lemma ValidRowsRead()
    ensures TagRows(ValidDoc) == Ok(ValidRows)
  {
    var dm := [(TagsKey, JArray(ValidRows)), (OtherTagsKey, ValidSection)];
    assert OtherTagsKey[0] != TagsKey[0];
    assert dm[..1] == [(TagsKey, JArray(ValidRows))];
    assert Field(dm, TagsKey, JArray([])) == JArray(ValidRows);
  }

  /** The three rows pass the name check. */
  lemma ValidRowsPass()
    ensures CheckNames(ValidRows).Pass?
  {
    QuickTagRowRead("Tag01", "Ctrl+1");
    QuickTagRowRead("Tag02", "Ctrl+2");
    QuickTagRowRead("Tag03", "Ctrl+3");
    ThreeRowsPass(ValidRows[0], ValidRows[1], ValidRows[2]);
    assert [ValidRows[0], ValidRows[1], ValidRows[2]] == ValidRows;
  }

  /** Three named rows pass the name check. */
  lemma ThreeRowsPass(a: Json, b: Json, c: Json)
    requires ReadRow(a).Kept? && Truthy(ReadRow(a).name)
    requires ReadRow(b).Kept? && Truthy(ReadRow(b).name)
    requires ReadRow(c).Kept? && Truthy(ReadRow(c).name)
    ensures CheckNames([a, b, c]).Pass?
  {
    assert RowPasses(a) && RowPasses(b) && RowPasses(c);
    assert forall i | 0 <= i < 3 :: RowPasses([a, b, c][i]);
  }

  /** The valid document's settings are shown and 10. */
  lemma ValidSettings()
    ensures Validate(ValidDoc) == Ok(Settings(true, 10))
  {
    ValidRowsRead();
    ValidRowsPass();
    var dm := [(TagsKey, JArray(ValidRows)), (OtherTagsKey, ValidSection)];
    assert Field(dm, OtherTagsKey, JObject([])) == ValidSection;
    var sm := [(VisibleKey, JBool(true)), (LimitKey, JInt(10))];
    assert VisibleKey[0] != LimitKey[0];
    assert sm[..1] == [(VisibleKey, JBool(true))];
    assert Field(sm, VisibleKey, JBool(true)) == JBool(true);
    assert Field(sm, LimitKey, JInt(10)) == JInt(10);
  }

  /** The name and shortcut pairs of the three rows. */
  const ValidPairs := [(JString("Tag01"), JString("Ctrl+1")), (JString("Tag02"), JString("Ctrl+2")), (JString("Tag03"), JString("Ctrl+3"))]

  /** The three rows yield their names and shortcuts, in order. */
  lemma ValidYieldedPairs()
    ensures Yielded(ValidRows) == ValidPairs
  {
    QuickTagRowRead("Tag01", "Ctrl+1");
    QuickTagRowRead("Tag02", "Ctrl+2");
    QuickTagRowRead("Tag03", "Ctrl+3");
    YieldedThree(ValidRows[0], ValidRows[1], ValidRows[2], ValidPairs[0], ValidPairs[1], ValidPairs[2]);
    assert [ValidRows[0], ValidRows[1], ValidRows[2]] == ValidRows;
    assert [ValidPairs[0], ValidPairs[1], ValidPairs[2]] == ValidPairs;
  }

  /** Three kept rows yield their three pairs, in order. */
  lemma YieldedThree(a: Json, b: Json, c: Json, pa: (Json, Json), pb: (Json, Json), pc: (Json, Json))
    requires ReadRow(a) == Kept(pa.0, pa.1)
    requires ReadRow(b) == Kept(pb.0, pb.1)
    requires ReadRow(c) == Kept(pc.0, pc.1)
    ensures Yielded([a, b, c]) == [pa, pb, pc]
  {
    ConfigProperties.YieldedKeptRow(c, [], pc.0, pc.1);
    assert [c] + [] == [c];
    ConfigProperties.YieldedKeptRow(b, [c], pb.0, pb.1);
    assert [b] + [c] == [b, c];
    ConfigProperties.YieldedKeptRow(a, [b, c], pa.0, pa.1);
    assert [a] + [b, c] == [a, b, c];
  }

  /** The three pairs become the expected tags. */
  lemma ValidPairsTags()
    ensures TagsInOrder(ValidPairs) == Ok(ExpectedTags)
  {
    var r := TagsInOrder(ValidPairs);
    assert forall i | 0 <= i < |ValidPairs| :: ValidPairs[i].0.JString?;
    var tags := r.value;
    assert |tags| == 3;
    assert tags[0] == ExpectedTags[0] && tags[1] == ExpectedTags[1] && tags[2] == ExpectedTags[2];
    assert tags == [tags[0], tags[1], tags[2]];
  }

  /** The three rows yield the expected tags, in order. */
  lemma ValidYielded()
    ensures TagsInOrder(Yielded(ValidRows)) == Ok(ExpectedTags)
  {
    ValidYieldedPairs();
    ValidPairsTags();
  }

  /** The expected tags are already in name order. */
  lemma ExpectedTagsSorted()
    ensures SortedBy(ExpectedTags, Name)
  {
    LessAfterCommonPrefix("Tag0", '1', '2');
    LessAfterCommonPrefix("Tag0", '2', '3');
    LessAfterCommonPrefix("Tag0", '1', '3');
    assert "Tag01" == "Tag0" + ['1'] && "Tag02" == "Tag0" + ['2'] && "Tag03" == "Tag0" + ['3'];
  }

  /** The valid document of `test__valid_config` is accepted: the settings
      are shown and 10, and the quick tags are the three rows' tags in name
      order. */
  lemma ValidConfig()
    ensures Validate(ValidDoc) == Ok(Settings(true, 10))
    ensures QuickTags(ValidDoc) == Ok(ExpectedTags)
  {
    ValidSettings();
    ValidRowsRead();
    ValidYielded();
    ExpectedTagsSorted();
    SortBySorted(ExpectedTags, Name);
  }

  /** A row with a shortcut and no name is rejected. */
  lemma MissingName()
    ensures New(JObject([(TagsKey, JArray([JObject([(ShortcutKey, JString("Ctrl+1"))])]))]), NotFound, NoCollection)
         == Err(ConfigError(NameRequired))
  {
    var row := JObject([(ShortcutKey, JString("Ctrl+1"))]);
    var data := JObject([(TagsKey, JArray([row]))]);
    assert TagRows(data) == Ok([row]);
    assert ReadRow(row) == Kept(JString(""), JString("Ctrl+1"));
    assert CheckNames([row]) == Fail(ConfigError(NameRequired));
  }

  /** A row with a shortcut and an empty name is rejected. */
  lemma BlankName()
    ensures New(JObject([(TagsKey, JArray([QuickTagRow("", "Ctrl+1")]))]), NotFound, NoCollection)
         == Err(ConfigError(NameRequired))
  {
    var row := QuickTagRow("", "Ctrl+1");
    var data := JObject([(TagsKey, JArray([row]))]);
    assert TagRows(data) == Ok([row]);
    assert ReadRow(row) == Kept(JString(""), JString("Ctrl+1"));
    assert CheckNames([row]) == Fail(ConfigError(NameRequired));
  }

  /** The string `"true"` is not a bool. */
  lemma InvalidVisible()
    ensures New(JObject([(OtherTagsKey, JObject([(VisibleKey, JString("true"))]))]), NotFound, NoCollection)
         == Err(ConfigError(VisibleNotBool))
  {
    var section := JObject([(VisibleKey, JString("true"))]);
    var data := JObject([(OtherTagsKey, section)]);
    assert TagRows(data) == Ok([]);
    assert Field(data.members, OtherTagsKey, JObject([])) == section;
    assert Validate(data) == Err(ConfigError(VisibleNotBool));
  }

  /** The string `"10"` is not an int. */
  lemma InvalidLimit()
    ensures New(JObject([(OtherTagsKey, JObject([(LimitKey, JString("10"))]))]), NotFound, NoCollection)
         == Err(ConfigError(LimitNotInt))
  {
    var section := JObject([(LimitKey, JString("10"))]);
    var data := JObject([(OtherTagsKey, section)]);
    assert TagRows(data) == Ok([]);
    assert Field(data.members, OtherTagsKey, JObject([])) == section;
    assert Validate(data) == Err(ConfigError(LimitNotInt));
  }
}

=== FILE: config_properties.dfy ===
/** Properties of the add-on's configuration model (`Config`). */
module ConfigProperties {
  import opened Results
  import opened StrOrder
  import opened Sorting
  import opened Json
  import opened Slices
  import opened Tags
  import opened Config

  // ---------------------------------------------------------------------
  // Reading rows

  /** A row whose name and shortcut are both missing or empty changes
      nothing: not the outcome of the name check, not the yielded pairs. */
  lemma BlankRowIgnored(rows: seq<Json>, i: nat, blank: Json)
    requires i <= |rows|
    requires ReadRow(blank).Blank?
    ensures CheckNames(rows[..i] + [blank] + rows[i..]) == CheckNames(rows)
    ensures Yielded(rows[..i] + [blank] + rows[i..]) == Yielded(rows)
  {
    BlankRowPasses(rows, i, blank);
    BlankRowYieldsNothing(rows, i, blank);
  }

  lemma {:induction false} BlankRowPasses(rows: seq<Json>, i: nat, blank: Json)
    requires i <= |rows|
    requires ReadRow(blank).Blank?
    ensures CheckNames(rows[..i] + [blank] + rows[i..]) == CheckNames(rows)
    decreases i
  {
    var with := rows[..i] + [blank] + rows[i..];
    if i == 0 {
      assert with == [blank] + rows;
      assert with[1..] == rows;
    } else {
      assert with[0] == rows[0];
      assert with[1..] == rows[1..][..i - 1] + [blank] + rows[1..][i - 1..];
      BlankRowPasses(rows[1..], i - 1, blank);
      assert CheckNames(with[1..]) == CheckNames(rows[1..]);
    }
  }

  lemma {:induction false} BlankRowYieldsNothing(rows: seq<Json>, i: nat, blank: Json)
    requires i <= |rows|
    requires ReadRow(blank).Blank?
    ensures Yielded(rows[..i] + [blank] + rows[i..]) == Yielded(rows)
    decreases i
  {
    var with := rows[..i] + [blank] + rows[i..];
    if i == 0 {
      assert with == [blank] + rows;
      assert with[1..] == rows;
    } else {
      BlankRowYieldsNothing(rows[1..], i - 1, blank);
      assert with[0] == rows[0];
      assert with[1..] == rows[1..][..i - 1] + [blank] + rows[1..][i - 1..];
    }
  }

  /** A dict row with no name (or an empty one) but a shortcut, after rows
      that all pass, makes the name check raise `ConfigError`. */
  lemma NamelessRowRejected(rows: seq<Json>, i: nat)
    requires i < |rows|
    requires forall j | 0 <= j < i :: RowPasses(rows[j])
    requires rows[i].JObject?
    requires !Truthy(Field(rows[i].members, NameKey, JString("")))
    requires Truthy(Field(rows[i].members, ShortcutKey, JString("")))
    ensures CheckNames(rows) == Fail(ConfigError(NameRequired))
  {
    var r := CheckNames(rows);
    assert ReadRow(rows[i]).Kept?;
    assert !RowPasses(rows[i]) && RowError(rows[i]) == ConfigError(NameRequired);
    if r.Fail? {
      var k :| 0 <= k < |rows| && !RowPasses(rows[k]) && r.error == RowError(rows[k])
               && forall j | 0 <= j < k :: RowPasses(rows[j]);
      assert k == i;
    }
  }

  /** A row that is kept yields its pair ahead of the rest. */
  lemma YieldedKeptRow(row: Json, rest: seq<Json>, name: Json, shortcut: Json)
    requires ReadRow(row) == Kept(name, shortcut)
    ensures Yielded([row] + rest) == [(name, shortcut)] + Yielded(rest)
  {
    assert ([row] + rest)[1..] == rest;
  }

  /** Every yielded pair is the name and shortcut of a row that is a dict
      and is not blank. */
  lemma {:induction false} YieldedFromKeptRows(rows: seq<Json>)
    ensures forall p | p in Yielded(rows) ::
      exists i | 0 <= i < |rows| :: ReadRow(rows[i]) == Kept(p.0, p.1)
    decreases |rows|
  {
    if |rows| > 0 {
      YieldedFromKeptRows(rows[1..]);
      forall p | p in Yielded(rows)
        ensures exists i | 0 <= i < |rows| :: ReadRow(rows[i]) == Kept(p.0, p.1)
      {
        if p !in Yielded(rows[1..]) {
          assert ReadRow(rows[0]) == Kept(p.0, p.1);
        } else {
          var j :| 0 <= j < |rows[1..]| && ReadRow(rows[1..][j]) == Kept(p.0, p.1);
          assert rows[1..][j] == rows[j + 1];
        }
      }
    }
  }

  /** Every name the rows yield after a passing name check is non-empty. */
  lemma {:induction false} YieldedNamesPresent(rows: seq<Json>)
    requires CheckNames(rows).Pass?
    ensures forall p | p in Yielded(rows) :: Truthy(p.0)
    decreases |rows|
  {
    if |rows| > 0 {
      assert RowPasses(rows[0]);
      assert forall j | 0 <= j < |rows| - 1 :: rows[1..][j] == rows[j + 1];
      YieldedNamesPresent(rows[1..]);
    }
  }

  // ---------------------------------------------------------------------
  // Validation order and the `other-tags` settings

  /** The names are checked first: their failure decides the error, whatever
      the `other-tags` settings hold. */
  lemma NamesCheckedFirst(data: Json)
    requires TagRows(data).Ok? && CheckNames(TagRows(data).value).Fail?
    ensures Validate(data) == Err(CheckNames(TagRows(data).value).error)
  {
  }

  /** With the names in order and no `other-tags` settings, the defaults
      apply: the other tags are visible, and ten of them are wanted. */
  lemma DefaultsApply(data: Json)
    requires TagRows(data).Ok? && CheckNames(TagRows(data).value).Pass?
    requires !HasKey(data.members, OtherTagsKey)
             || (Section(data) == Ok(JObject([])))
    ensures Validate(data) == Ok(Settings(true, 10))
    ensures VisibleValue(data) == Ok(JBool(true)) && LimitValue(data) == Ok(JInt(10))
  {
  }

  /** With the names in order, a `visible` that is absent or a bool and a
      `limit` that is absent or an int (bools included) are accepted, with
      exactly those values. */
  lemma ValidSettingsAccepted(data: Json, section: seq<(string, Json)>)
    requires TagRows(data).Ok? && CheckNames(TagRows(data).value).Pass?
    requires Section(data) == Ok(JObject(section))
    requires Field(section, VisibleKey, JBool(true)).JBool?
    requires IsPyInt(Field(section, LimitKey, JInt(10)))
    ensures Validate(data)
         == Ok(Settings(Field(section, VisibleKey, JBool(true)).b, PyInt(Field(section, LimitKey, JInt(10)))))
  {
  }

  /** A `visible` setting that is present but not a bool (the string
      `"true"`, say) raises `ConfigError`, before the limit is looked at. */
  lemma VisibleMustBeBool(data: Json, section: seq<(string, Json)>)
    requires TagRows(data).Ok? && CheckNames(TagRows(data).value).Pass?
    requires Section(data) == Ok(JObject(section))
    requires HasKey(section, VisibleKey) && !Field(section, VisibleKey, JNull).JBool?
    ensures Validate(data) == Err(ConfigError(VisibleNotBool))
  {
    assert Field(section, VisibleKey, JNull) == Field(section, VisibleKey, JBool(true)) by {
      FieldIgnoresDefault(section, VisibleKey, JNull, JBool(true));
    }
  }

  /** A `limit` setting that is present but not an int (the string `"10"`,
      a float) raises `ConfigError`. A bool is an int in Python, so `true`
      is accepted and stands for 1. */
  lemma LimitMustBeInt(data: Json, section: seq<(string, Json)>)
    requires TagRows(data).Ok? && CheckNames(TagRows(data).value).Pass?
    requires Section(data) == Ok(JObject(section))
    requires Field(section, VisibleKey, JBool(true)).JBool?
    requires HasKey(section, LimitKey)
    ensures !IsPyInt(Field(section, LimitKey, JNull)) ==>
              Validate(data) == Err(ConfigError(LimitNotInt))
    ensures Field(section, LimitKey, JNull) == JBool(true) ==>
              Validate(data).Ok? && Validate(data).value.limit == 1
  {
    FieldIgnoresDefault(section, LimitKey, JNull, JInt(10));
  }

  // ---------------------------------------------------------------------
  // The quick-tag list

  /** After validation, the quick-tag list holds one tag per row that was
      not skipped, each with a non-empty name, and it is what a stable sort
      by name makes of those tags in row order. */
  lemma QuickTagsAreSortedRows(data: Json)
    requires Validate(data).Ok? && QuickTags(data).Ok?
    ensures var rows := TagRows(data).value;
      var inOrder := TagsInOrder(Yielded(rows)).value;
      var quick := QuickTags(data).value;
      && |quick| == |Yielded(rows)|
      && multiset(quick) == multiset(inOrder)
      && IsStableSortOf(quick, inOrder, Name)
      && forall i | 0 <= i < |quick| :: quick[i].name != ""
  {
    var rows := TagRows(data).value;
    var pairs := Yielded(rows);
    var inOrder := TagsInOrder(pairs).value;
    var quick := QuickTags(data).value;
    YieldedNamesPresent(rows);
    TagNamesPresent(pairs);
    SortKeepsNames(inOrder);
  }

  lemma TagNamesPresent(pairs: seq<(Json, Json)>)
    requires TagsInOrder(pairs).Ok?
    requires forall p | p in pairs :: Truthy(p.0)
    ensures forall i | 0 <= i < |TagsInOrder(pairs).value| :: TagsInOrder(pairs).value[i].name != ""
  {
    var tags := TagsInOrder(pairs).value;
    forall i | 0 <= i < |tags|
      ensures tags[i].name != ""
    {
      var p := pairs[i];
      assert p in pairs;
      assert p.0 == JString(tags[i].name);
    }
  }

  lemma SortKeepsNames(tags: seq<Tag>)
    requires forall i | 0 <= i < |tags| :: tags[i].name != ""
    ensures forall i | 0 <= i < |SortBy(tags, Name)| :: SortBy(tags, Name)[i].name != ""
  {
    var sorted := SortBy(tags, Name);
    forall i | 0 <= i < |sorted|
      ensures sorted[i].name != ""
    {
      assert sorted[i] in multiset(tags);
    }
  }

  // ---------------------------------------------------------------------
  // The other-tags list

  /** The list is cut after `limit + 1` entries, not `limit`; a negative limit
      is not rejected and cuts from the end as a Python slice does. */
  lemma OtherTagsCount(all: seq<string>, quickNames: seq<string>, limit: int)
    ensures var n := |OtherTags(all, quickNames, limit)|;
      var count := |Without(all, quickNames)|;
      && (-1 <= limit ==> n == if limit + 1 < count then limit + 1 else count)
      && (limit < -1 ==> n == if count + limit + 1 > 0 then count + limit + 1 else 0)
  {
    var kept := SortStrings(Without(all, quickNames));
    assert |kept| == |Without(all, quickNames)| by {
      assert |multiset(kept)| == |multiset(Without(all, quickNames))|;
    }
  }

  /** The kept tags are the first ones in sorted order: no host tag that was
      left out (and is not a quick-tag name) sorts before one that was kept. */
  lemma OtherTagsAreFirst(all: seq<string>, quickNames: seq<string>, limit: int)
    ensures var r := OtherTags(all, quickNames, limit);
      forall t | t in all && t !in quickNames && t !in Names(r) ::
        forall i | 0 <= i < |r| :: LessEq(r[i].name, t)
  {
    var w := Without(all, quickNames);
    var cut := SliceTo(SortStrings(w), limit + 1);
    var r := OtherTags(all, quickNames, limit);
    assert Names(r) == cut;
    CutIsPrefix(w, limit + 1);
    forall t | t in all && t !in quickNames && t !in Names(r)
      ensures forall i | 0 <= i < |r| :: LessEq(r[i].name, t)
    {
      assert t in w && t !in cut;
      forall i | 0 <= i < |r|
        ensures LessEq(r[i].name, t)
      {
        assert r[i].name == cut[i];
      }
    }
  }

  lemma CutIsPrefix(w: seq<string>, stop: int)
    ensures var cut := SliceTo(SortStrings(w), stop);
      forall t | t in w && t !in cut :: forall i | 0 <= i < |cut| :: LessEq(cut[i], t)
  {
    var kept := SortStrings(w);
    var cut := SliceTo(kept, stop);
    forall t | t in w && t !in cut
      ensures forall i | 0 <= i < |cut| :: LessEq(cut[i], t)
    {
      assert t in multiset(kept);
      var m :| 0 <= m < |kept| && kept[m] == t;
      forall i | 0 <= i < |cut|
        ensures LessEq(cut[i], t)
      {
        assert cut[i] == kept[i];
      }
    }
  }

  /** The other tags do not depend on the order in which the host lists its
      tags, only on which tags (and how often) it lists. */
  lemma OtherTagsIgnoreHostOrder(all1: seq<string>, all2: seq<string>, quickNames: seq<string>, limit: int)
    requires multiset(all1) == multiset(all2)
    ensures OtherTags(all1, quickNames, limit) == OtherTags(all2, quickNames, limit)
  {
    var w1, w2 := Without(all1, quickNames), Without(all2, quickNames);
    assert multiset(w1) == multiset(w2) by {
      forall t
        ensures multiset(w1)[t] == multiset(w2)[t]
      {
        WithoutCounts(all1, quickNames, t);
        WithoutCounts(all2, quickNames, t);
      }
    }
    SortStringsByCount(w1, w2);
  }

  // ---------------------------------------------------------------------
  // Reloading

  /** Reloading twice from the same source leaves the same state as
      reloading once, whether the reload succeeds or not. */
  lemma ReloadIdempotent(s: Store, data: Json, file: FileRead, host: Host)
    ensures var once := Reload(s, data, file, host);
      Reload(once.store, data, file, host) == once
  {
  }

  /** Whether a reload succeeds does not depend on what the store held
      before; after a successful reload with a collection open, neither does
      the new state. */
  lemma ReloadReplacesLists(s1: Store, s2: Store, data: Json, file: FileRead, tags: seq<string>)
    ensures Reload(s1, data, file, Collection(tags)).outcome == Reload(s2, data, file, Collection(tags)).outcome
    ensures Reload(s1, data, file, Collection(tags)).outcome.Pass? ==>
      Reload(s1, data, file, Collection(tags)) == Reload(s2, data, file, Collection(tags))
  {
  }

  /** After a successful reload the settings read back from the store are
      the validated ones. */
  lemma ReloadedSettings(s: Store, data: Json, file: FileRead, host: Host)
    requires Reload(s, data, file, host).outcome.Pass?
    ensures var r := Reload(s, data, file, host).store;
      var settings := Validate(r.data).value;
      && OtherTagsAreVisible(r) == Ok(JBool(settings.visible))
      && OtherTagsLimit(r).Ok? && PyInt(OtherTagsLimit(r).value) == settings.limit
  {
  }
}

=== FILE: json.dfy ===
/** Decoded JSON values and the few Python operations the add-on applies to
    them: truth value, `dict.get`, `for ... in`, `in` and `isinstance(v, int)`.

    An object is the list of its members in document order, which is the
    insertion order of the dict `json.load` builds. When a key is repeated,
    `json.load` keeps the last value, and so does `Field`.
 */
module Json {
  import opened Results

  datatype Json =
    | JNull
    | JBool(b: bool)
    | JInt(i: int)
    | JFloat(r: real)
    | JString(s: string)
    | JArray(items: seq<Json>)
    | JObject(members: seq<(string, Json)>)

  /** What opening and decoding the configuration file produced. */
  datatype FileRead = NotFound | Undecodable | Decoded(doc: Json)

  /** Reading the configuration file: a missing file and a file that is not
      JSON are both configuration errors, told apart by their message. */
  function Load(file: FileRead): (r: Result<Json>)
    ensures r.Ok? <==> file.Decoded?
    ensures r.Ok? ==> r.value == file.doc
    ensures file.NotFound? ==> r.error == ConfigError(FileMissing)
    ensures file.Undecodable? ==> r.error == ConfigError(FileUnreadable)
  {
    match file
    case NotFound => Err(ConfigError(FileMissing))
    case Undecodable => Err(ConfigError(FileUnreadable))
    case Decoded(doc) => Ok(doc)
  }

  /** Python's truth value of a decoded value (`bool(v)`). */
  predicate Truthy(j: Json) {
    match j
    case JNull => false
    case JBool(b) => b
    case JInt(i) => i != 0
    case JFloat(r) => r != 0.0
    case JString(s) => |s| > 0
    case JArray(items) => |items| > 0
    case JObject(members) => |members| > 0
  }

  predicate HasKey(members: seq<(string, Json)>, key: string) {
    exists i | 0 <= i < |members| :: members[i].0 == key
  }

  /** `d.get(key, default)` on the dict whose members are `members`. */
  function Field(members: seq<(string, Json)>, key: string, default: Json): (r: Json)
    ensures !HasKey(members, key) ==> r == default
    ensures HasKey(members, key) ==>
      exists i | 0 <= i < |members| :: members[i] == (key, r)
        && forall j | i < j < |members| :: members[j].0 != key
  {
    if |members| == 0 then default
    else
      var last := members[|members| - 1];
      if last.0 == key then last.1
      else
        var prefix := members[..|members| - 1];
        var r := Field(prefix, key, default);
        assert HasKey(members, key) ==> HasKey(prefix, key);
        assert HasKey(members, key) ==>
          exists i | 0 <= i < |members| :: members[i] == (key, r)
            && forall j | i < j < |members| :: members[j].0 != key
        by {
          if HasKey(members, key) {
            var i :| 0 <= i < |prefix| && prefix[i] == (key, r)
              && forall j | i < j < |prefix| :: prefix[j].0 != key;
            assert members[i] == prefix[i];
            assert forall j | i < j < |members| :: members[j].0 != key by {
              forall j | i < j < |members|
                ensures members[j].0 != key
              {
                if j < |prefix| {
                  assert members[j] == prefix[j];
                }
              }
            }
          }
        }
        r
  }

  /** When the key is present, the default plays no part. */
  lemma {:induction false} FieldIgnoresDefault(members: seq<(string, Json)>, key: string, d1: Json, d2: Json)
    requires HasKey(members, key)
    ensures Field(members, key, d1) == Field(members, key, d2)
    decreases |members|
  {
    var n := |members|;
    if members[n - 1].0 != key {
      var k :| 0 <= k < n && members[k].0 == key;
      assert members[..n - 1][k].0 == key;
      FieldIgnoresDefault(members[..n - 1], key, d1, d2);
    }
  }

  /** `v.get(key, default)`: only a dict has `get`. */
  function Get(v: Json, key: string, default: Json): (r: Result<Json>)
    ensures r.Ok? <==> v.JObject?
    ensures r.Err? ==> r.error == Fault(AttributeFault)
    ensures v.JObject? && !HasKey(v.members, key) ==> r == Ok(default)
    ensures r.Ok? ==> r.value == Field(v.members, key, default)
  {
    match v
    case JObject(members) => Ok(Field(members, key, default))
    case _ => Err(Fault(AttributeFault))
  }

  /** The keys of the dict `json.load` builds from `members`: each distinct
      key once, at the position of its first occurrence. */
  function Keys(members: seq<(string, Json)>): (r: seq<string>)
    ensures |r| <= |members|
    ensures forall t :: t in r <==> HasKey(members, t)
    ensures forall i, j | 0 <= i < j < |r| :: r[i] != r[j]
  {
    if |members| == 0 then []
    else
      var prefix := members[..|members| - 1];
      var last := members[|members| - 1].0;
      var keys := Keys(prefix);
      assert forall t :: HasKey(members, t) <==> HasKey(prefix, t) || t == last by {
        forall t
          ensures HasKey(members, t) <==> HasKey(prefix, t) || t == last
        {
          if HasKey(members, t) {
            var i :| 0 <= i < |members| && members[i].0 == t;
            if i < |prefix| {
              assert prefix[i] == members[i];
            }
          }
          if HasKey(prefix, t) {
            var i :| 0 <= i < |prefix| && prefix[i].0 == t;
            assert members[i] == prefix[i];
          }
        }
      }
      if last in keys then keys else keys + [last]
  }

  /** Adding members to a dict only appends keys: the keys of a prefix of
      the members come first, in the same order. */
  lemma {:induction false} KeysPrefix(members: seq<(string, Json)>, n: nat)
    requires n <= |members|
    ensures Keys(members[..n]) <= Keys(members)
    decreases |members| - n
  {
    if n < |members| {
      var m := members[..n + 1];
      assert m[..|m| - 1] == members[..n];
      KeysPrefix(members, n + 1);
    } else {
      assert members[..n] == members;
    }
  }

  /** The values `for x in v` visits: the items of a list, the one-character
      strings of a string, the keys of a dict. Nothing else is iterable. */
  function Iterate(v: Json): (r: Result<seq<Json>>)
    ensures r.Ok? <==> v.JArray? || v.JString? || v.JObject?
    ensures r.Err? ==> r.error == Fault(IterationFault)
    ensures v.JArray? ==> r == Ok(v.items)
    ensures v.JString? ==> |r.value| == |v.s| && forall i | 0 <= i < |v.s| :: r.value[i] == JString([v.s[i]])
    ensures v.JObject? ==>
      && |r.value| == |Keys(v.members)|
      && forall i | 0 <= i < |r.value| :: r.value[i] == JString(Keys(v.members)[i])
  {
    match v
    case JArray(items) => Ok(items)
    case JString(s) => Ok(seq(|s|, i requires 0 <= i < |s| => JString([s[i]])))
    case JObject(members) =>
      var keys := Keys(members);
      Ok(seq(|keys|, i requires 0 <= i < |keys| => JString(keys[i])))
    case _ => Err(Fault(IterationFault))
  }

  /** Iterating a dict visits every key once. */
  lemma IterateKeys(members: seq<(string, Json)>)
    ensures var r := Iterate(JObject(members)).value;
      && (forall t :: JString(t) in r <==> HasKey(members, t))
      && (forall i, j | 0 <= i < j < |r| :: r[i] != r[j])
      && (forall x | x in r :: x.JString?)
  {
    var r := Iterate(JObject(members)).value;
    var keys := Keys(members);
    forall t
      ensures JString(t) in r <==> HasKey(members, t)
    {
      if t in keys {
        var i :| 0 <= i < |keys| && keys[i] == t;
        assert r[i] == JString(t);
      }
    }
  }

  /** `t` occurs in `s` as a run of consecutive characters. */
  predicate IsSubstring(t: string, s: string)
    decreases |s|
  {
    t <= s || (|s| > 0 && IsSubstring(t, s[1..]))
  }

  /** `t` is the slice of `s` that starts at position `i`. */
  predicate OccursAt(t: string, s: string, i: int) {
    0 <= i && i + |t| <= |s| && s[i..i + |t|] == t
  }

  /** `IsSubstring` agrees with the index definition: `t` is the slice of
      `s` starting at some position. */
  lemma {:induction false} IsSubstringAt(t: string, s: string)
    ensures IsSubstring(t, s) <==> exists i :: OccursAt(t, s, i)
    decreases |s|
  {
    if t <= s {
      assert OccursAt(t, s, 0);
    } else if |s| == 0 {
      assert !IsSubstring(t, s);
    } else {
      IsSubstringAt(t, s[1..]);
      if IsSubstring(t, s) {
        var i :| OccursAt(t, s[1..], i);
        assert s[1..][i..i + |t|] == s[i + 1..i + 1 + |t|];
        assert OccursAt(t, s, i + 1);
      }
      if exists i :: OccursAt(t, s, i) {
        var i :| OccursAt(t, s, i);
        if i == 0 {
          assert false;
        } else {
          var rest := s[1..];
          assert rest[i - 1..i - 1 + |t|] == t by {
            forall k | 0 <= k < |t|
              ensures rest[i - 1..i - 1 + |t|][k] == t[k]
            {
              assert rest[i - 1 + k] == s[i + k];
              assert s[i..i + |t|][k] == s[i + k];
            }
          }
          assert OccursAt(t, rest, i - 1);
        }
      }
    }
  }

  /** `t in v` for a string `t`: list membership by equality, substring test
      on a string, key test on a dict. Anything else raises. */
  function Contains(v: Json, t: string): (r: Result<bool>)
    ensures r.Ok? <==> v.JArray? || v.JString? || v.JObject?
    ensures r.Err? ==> r.error == Fault(MembershipFault)
    ensures v.JArray? ==> r == Ok(JString(t) in v.items)
    ensures v.JObject? ==> r == Ok(HasKey(v.members, t))
    ensures v.JString? ==> (r.value <==> IsSubstring(t, v.s))
  {
    match v
    case JArray(items) => Ok(JString(t) in items)
    case JString(s) => Ok(IsSubstring(t, s))
    case JObject(members) => Ok(HasKey(members, t))
    case _ => Err(Fault(MembershipFault))
  }

  /** `isinstance(v, int)`: Python's `bool` is a subclass of `int`. */
  predicate IsPyInt(v: Json) {
    v.JInt? || v.JBool?
  }

  /** The integer an int-like value stands for (`True` is 1, `False` is 0). */
  function PyInt(v: Json): int
    requires IsPyInt(v)
  {
    if v.JInt? then v.i else if v.b then 1 else 0
  }
}

=== FILE: quick_tags_variant.dfy ===
/** The older `anki-quick-tags` add-on: it validates the `quick-tags` list
    when it loads the configuration, keeps the document as it is, and builds
    the review context menu and the review shortcuts from it on demand.

    The file read is a `FileRead` and the host's tag names are a parameter;
    the menu and the shortcut list are returned as data instead of being
    added to the host's widgets.
 */
module QuickTagsVariant {
  import opened Results
  import opened Json
  import opened StrOrder
  import opened Slices
  import opened Tags

  const QuickTagsKey := "quick-tags"
  const NameKey := "name"
  const ShortcutKey := "shortcut"
  const AdditionalTagsKey := "additional-tags"
  const AdditionalLimitKey := "additional-tags-limit"
  const DefaultShowAdditional := true
  const DefaultAdditionalLimit := 10

  /** The host state in which the hooks add anything. */
  const ReviewState := "review"

  /** An item of `quick-tags` that the load check lets through: a dict whose
      `name` is truthy. */
  predicate ItemPasses(v: Json) {
    v.JObject? && Truthy(Field(v.members, NameKey, JNull))
  }

  /** What the load check raises at an item it stops at: `.get` on a
      non-dict, or the missing-name error. */
  function ItemError(v: Json): Error {
    if v.JObject? then ConfigError(NameRequired) else Fault(AttributeFault)
  }

  /** The name check of the loader: every item, blank or not, needs a name,
      and the first item without one decides the error. */
  function CheckItems(items: seq<Json>): (r: Outcome)
    ensures r.Pass? <==> forall i | 0 <= i < |items| :: ItemPasses(items[i])
    ensures r.Fail? ==>
      exists i | 0 <= i < |items| ::
        && !ItemPasses(items[i])
        && r.error == ItemError(items[i])
        && forall j | 0 <= j < i :: ItemPasses(items[j])
  {
    if |items| == 0 then Pass
    else if !ItemPasses(items[0]) then Fail(ItemError(items[0]))
    else
      assert forall j | 1 <= j < |items| :: items[j] == items[1..][j - 1];
      CheckItems(items[1..])
  }

  /** `_load_config`: read the file, require `quick-tags`, check every item's
      name, and keep the document unchanged. */
  function LoadConfig(file: FileRead): (r: Result<Json>)
    ensures r.Ok? <==>
      && file.Decoded?
      && file.doc.JObject?
      && var quick := Field(file.doc.members, QuickTagsKey, JNull);
      && !quick.JNull?
      && Iterate(quick).Ok?
      && CheckItems(Iterate(quick).value).Pass?
    ensures r.Ok? ==> r.value == file.doc
    ensures file.NotFound? ==> r == Err(ConfigError(FileMissing))
    ensures file.Undecodable? ==> r == Err(ConfigError(FileUnreadable))
    ensures file.Decoded? && file.doc.JObject? && Field(file.doc.members, QuickTagsKey, JNull).JNull?
            ==> r == Err(ConfigError(QuickTagsMissing))
    ensures file.Decoded? && r.Err? ==>
      r.error == (if !file.doc.JObject? then Fault(AttributeFault)
                  else
                    var quick := Field(file.doc.members, QuickTagsKey, JNull);
                    if quick.JNull? then ConfigError(QuickTagsMissing)
                    else if Iterate(quick).Err? then Fault(IterationFault)
                    else CheckItems(Iterate(quick).value).error)
  {
    var config :- Load(file);
    var quick :- Get(config, QuickTagsKey, JNull);
    if quick.JNull? then Err(ConfigError(QuickTagsMissing))
    else
      var items :- Iterate(quick);
      :- CheckItems(items);
      Ok(config)
  }

  /** `_show_additional_tags` as the menu hook tests it: the truth value of
      the raw setting, `true` when absent. */
  function ShowAdditional(config: Json): (r: Result<bool>)
    ensures r.Ok? <==> config.JObject?
    ensures r.Ok? ==> r.value == Truthy(Field(config.members, AdditionalTagsKey, JBool(DefaultShowAdditional)))
  {
    var show :- Get(config, AdditionalTagsKey, JBool(DefaultShowAdditional));
    Ok(Truthy(show))
  }

  /** `_additional_tags_limit`: the raw setting, `10` when absent. */
  function AdditionalLimit(config: Json): (r: Result<Json>)
    ensures r.Ok? <==> config.JObject?
    ensures r.Err? ==> r.error == Fault(AttributeFault)
    ensures r.Ok? ==>
      r.value == if HasKey(config.members, AdditionalLimitKey) then Field(config.members, AdditionalLimitKey, JNull) else JInt(DefaultAdditionalLimit)
  {
    if config.JObject? && HasKey(config.members, AdditionalLimitKey) then
      FieldIgnoresDefault(config.members, AdditionalLimitKey, JNull, JInt(DefaultAdditionalLimit));
      Get(config, AdditionalLimitKey, JInt(DefaultAdditionalLimit))
    else
      Get(config, AdditionalLimitKey, JInt(DefaultAdditionalLimit))
  }

  /** `_quick_tags`: the raw list, empty when absent. */
  function QuickTagsList(config: Json): (r: Result<Json>)
    ensures r.Ok? <==> config.JObject?
    ensures r.Err? ==> r.error == Fault(AttributeFault)
    ensures r.Ok? ==>
      r.value == if HasKey(config.members, QuickTagsKey) then Field(config.members, QuickTagsKey, JNull) else JArray([])
  {
    if config.JObject? && HasKey(config.members, QuickTagsKey) then
      FieldIgnoresDefault(config.members, QuickTagsKey, JNull, JArray([]));
      Get(config, QuickTagsKey, JArray([]))
    else
      Get(config, QuickTagsKey, JArray([]))
  }

  /** `_additional_tags`: the host's tags, sorted, without those found `in`
      the raw quick-tag list, sorted again. */
  function AdditionalTags(config: Json, host: seq<string>): (r: Result<seq<string>>)
    ensures r.Ok? ==> forall i, j | 0 <= i < j < |r.value| :: LessEq(r.value[i], r.value[j])
    ensures r.Ok? ==> forall t | t in r.value :: t in host
  {
    var quick :- QuickTagsList(config);
    var kept :- Unlisted(SortStrings(host), quick);
    SortStringsMembers(host);
    SortStringsMembers(kept);
    Ok(SortStrings(kept))
  }

  /** The part of the review context menu the add-on contributes: the quick
      tags' names in configuration order, and the additional-tags submenu when
      it is shown. */
  datatype Menu = Menu(quick: seq<Json>, submenu: Option<seq<string>>)

  const NoMenu := Menu([], None)

  /** `item.get("name")` for each quick-tag item, in order. */
  function MenuNames(items: seq<Json>): (r: Result<seq<Json>>)
    ensures r.Ok? <==> forall i | 0 <= i < |items| :: items[i].JObject?
    ensures r.Err? ==> r.error == Fault(AttributeFault)
    ensures r.Ok? ==> |r.value| == |items|
    ensures r.Ok? ==> forall i | 0 <= i < |items| :: r.value[i] == Field(items[i].members, NameKey, JNull)
  {
    if |items| == 0 then Ok([])
    else
      var name :- Get(items[0], NameKey, JNull);
      assert forall j | 1 <= j < |items| :: items[j] == items[1..][j - 1];
      var rest :- MenuNames(items[1..]);
      Ok([name] + rest)
  }

  /** `hook__append_context_menu`: nothing outside review; otherwise one
      entry per quick tag, then, when shown, the first `limit` additional
      tags. */
  function ContextMenu(config: Json, state: string, host: seq<string>): (r: Result<Menu>)
    ensures state != ReviewState ==> r == Ok(NoMenu)
    ensures r.Ok? && state == ReviewState ==>
      && QuickTagsList(config).Ok?
      && Iterate(QuickTagsList(config).value).Ok?
      && MenuNames(Iterate(QuickTagsList(config).value).value) == Ok(r.value.quick)
    ensures r.Ok? && state == ReviewState ==>
      (r.value.submenu.Some? <==> ShowAdditional(config) == Ok(true))
    ensures r.Ok? && r.value.submenu.Some? ==>
      && AdditionalTags(config, host).Ok?
      && AdditionalLimit(config).Ok?
      && SliceBy(AdditionalTags(config, host).value, AdditionalLimit(config).value) == Ok(r.value.submenu.value)
    ensures state == ReviewState ==>
      (r.Ok? <==>
        && QuickTagsList(config).Ok?
        && Iterate(QuickTagsList(config).value).Ok?
        && MenuNames(Iterate(QuickTagsList(config).value).value).Ok?
        && (ShowAdditional(config) == Ok(false)
            || IsPyInt(AdditionalLimit(config).value)
            || AdditionalLimit(config).value.JNull?))
  {
    if state != ReviewState then Ok(NoMenu)
    else
      var quick :- QuickTagsList(config);
      var items :- Iterate(quick);
      var names :- MenuNames(items);
      var show := ShowAdditional(config).value;
      if !show then Ok(Menu(names, None))
      else
        // `quick` is iterable here, so computing the additional tags
        // cannot raise.
        match AdditionalTags(config, host)
        case Err(e) => Err(e)
        case Ok(tags) =>
          var limit := AdditionalLimit(config).value;
          var cut :- SliceBy(tags, limit);
          Ok(Menu(names, Some(cut)))
  }

  /** A review shortcut: the key sequence and the name of the tag it toggles. */
  datatype Binding = Binding(shortcut: Json, tagName: Json)

  /** The binding one quick-tag item contributes: one when its shortcut is
      truthy, none otherwise; `.get` on a non-dict raises. */
  function ItemBindings(item: Json): (r: Result<seq<Binding>>)
    ensures r.Ok? <==> item.JObject?
    ensures r.Ok? ==> (|r.value| == 1 <==> Truthy(Field(item.members, ShortcutKey, JNull)))
    ensures r.Ok? ==> |r.value| <= 1
    ensures r.Ok? && |r.value| == 1 ==>
      r.value[0] == Binding(Field(item.members, ShortcutKey, JNull), Field(item.members, NameKey, JNull))
  {
    var name :- Get(item, NameKey, JNull);
    var shortcut := Field(item.members, ShortcutKey, JNull);
    if !Truthy(shortcut) then Ok([]) else Ok([Binding(shortcut, name)])
  }

  /** The bindings of a list of items, in item order. */
  function Bindings(items: seq<Json>): (r: Result<seq<Binding>>)
    ensures r.Ok? <==> forall i | 0 <= i < |items| :: items[i].JObject?
    ensures r.Err? ==> r.error == Fault(AttributeFault)
    ensures r.Ok? ==> |r.value| <= |items|
    ensures r.Ok? ==> forall b | b in r.value :: Truthy(b.shortcut)
  {
    if |items| == 0 then Ok([])
    else
      var first :- ItemBindings(items[0]);
      assert forall j | 1 <= j < |items| :: items[j] == items[1..][j - 1];
      var rest :- Bindings(items[1..]);
      Ok(first + rest)
  }

  /** `hook__append_shortcuts`: nothing outside review; otherwise the
      bindings of the quick-tag items. */
  function Shortcuts(config: Json, state: string): (r: Result<seq<Binding>>)
    ensures state != ReviewState ==> r == Ok([])
    ensures state == ReviewState && r.Ok? ==>
      && QuickTagsList(config).Ok?
      && Iterate(QuickTagsList(config).value).Ok?
      && Bindings(Iterate(QuickTagsList(config).value).value) == r
    ensures state == ReviewState ==>
      (r.Ok? <==>
        && QuickTagsList(config).Ok?
        && Iterate(QuickTagsList(config).value).Ok?
        && Bindings(Iterate(QuickTagsList(config).value).value).Ok?)
  {
    if state != ReviewState then Ok([])
    else
      var quick :- QuickTagsList(config);
      var items :- Iterate(quick);
      Bindings(items)
  }
}

=== FILE: quick_tags_variant_properties.dfy ===
/** Properties of the `anki-quick-tags` variant: what a successful load
    guarantees about `quick-tags`, that the additional tags keep every
    known tag, the shape of the review menu, and the order of the review
    shortcuts. */
module QuickTagsVariantProperties {
  import opened Results
  import opened Json
  import opened Slices
  import opened Sorting
  import opened Tags
  import opened QuickTagsVariant

  /** The display settings are not type-checked: an absent one takes its
      default, a present one is taken as it is. */
  lemma SettingsDefaults(members: seq<(string, Json)>)
    ensures !HasKey(members, AdditionalTagsKey) ==> ShowAdditional(JObject(members)) == Ok(true)
    ensures !HasKey(members, AdditionalLimitKey) ==> AdditionalLimit(JObject(members)) == Ok(JInt(10))
    ensures HasKey(members, AdditionalTagsKey) ==>
      ShowAdditional(JObject(members)) == Ok(Truthy(Field(members, AdditionalTagsKey, JNull)))
    ensures HasKey(members, AdditionalLimitKey) ==>
      AdditionalLimit(JObject(members)) == Ok(Field(members, AdditionalLimitKey, JNull))
  {
    if HasKey(members, AdditionalTagsKey) {
      FieldIgnoresDefault(members, AdditionalTagsKey, JNull, JBool(true));
    }
    if HasKey(members, AdditionalLimitKey) {
      FieldIgnoresDefault(members, AdditionalLimitKey, JNull, JInt(10));
    }
  }

  /** `t` does not occur in the empty string unless it is empty. */
  lemma NotInEmpty(t: string)
    ensures IsSubstring(t, "") <==> t == ""
  {
  }

  /** Among values none of which is a string there are no strings. */
  lemma {:induction false} NoStringItems(items: seq<Json>)
    requires forall i | 0 <= i < |items| :: items[i].JObject?
    ensures StringItems(items) == []
    decreases |items|
  {
    if |items| > 0 {
      assert forall i | 0 <= i < |items[1..]| :: items[1..][i] == items[i + 1];
      NoStringItems(items[1..]);
    }
  }

  /** A load succeeds only when `quick-tags` is present and is a list of
      dicts with truthy names, or one of the two empty iterables that give
      the name check nothing to look at: `""` and `{}`. */
  lemma LoadedQuickTags(file: FileRead)
    requires LoadConfig(file).Ok?
    ensures var config := LoadConfig(file).value;
      && config.JObject?
      && QuickTagsList(config) == Ok(Field(config.members, QuickTagsKey, JNull))
      && var quick := QuickTagsList(config).value;
      || (quick.JArray? && forall i | 0 <= i < |quick.items| :: ItemPasses(quick.items[i]))
      || quick == JString("")
      || quick == JObject([])
  {
    var config := file.doc;
    var quick := Field(config.members, QuickTagsKey, JNull);
    assert HasKey(config.members, QuickTagsKey);
    FieldIgnoresDefault(config.members, QuickTagsKey, JNull, JArray([]));
    var items := Iterate(quick).value;
    assert forall i | 0 <= i < |items| :: items[i].JObject?;
    if quick.JString? && |quick.s| > 0 {
      assert false;
    }
    if quick.JObject? && |quick.members| > 0 {
      assert false;
    }
  }

  /** After a successful load every known tag shows up among the additional
      tags, except the empty name when `quick-tags` is `""`: the `in` test
      compares a string with the quick-tag dicts, which it never equals. */
  lemma LoadedKeepsKnownTags(file: FileRead, host: seq<string>)
    requires LoadConfig(file).Ok?
    ensures var r := AdditionalTags(LoadConfig(file).value, host);
      && r.Ok?
      && forall t | t in host && t != "" :: t in r.value
  {
    var config := LoadConfig(file).value;
    LoadedQuickTags(file);
    var quick := QuickTagsList(config).value;
    var sorted := SortStrings(host);
    SortStringsMembers(host);
    var kept := Unlisted(sorted, quick).value;
    SortStringsMembers(kept);
    forall t | t in host && t != ""
      ensures t in kept
    {
      if quick.JArray? {
        NoStringItems(quick.items);
      } else if quick.JString? {
        NotInEmpty(t);
      }
    }
  }

  /** When `quick-tags` is a list, the additional tags are all the known
      tags, sorted. */
  lemma AdditionalTagsAreAllTags(file: FileRead, host: seq<string>)
    requires LoadConfig(file).Ok?
    requires QuickTagsList(LoadConfig(file).value).Ok?
    requires QuickTagsList(LoadConfig(file).value).value.JArray?
    ensures AdditionalTags(LoadConfig(file).value, host) == Ok(SortStrings(host))
  {
    LoadedQuickTags(file);
    var quick := QuickTagsList(LoadConfig(file).value).value;
    NoStringItems(quick.items);
    WithoutNothing(SortStrings(host));
    SortStringsTwice(host);
  }

  /** In review, a loaded configuration whose `quick-tags` is a list gives a
      menu with one truthy name per item, in configuration order; the
      submenu, when shown, is the first `limit` known tags in sorted order,
      and only a `limit` that is neither an int nor null makes the hook raise. */
  lemma LoadedMenu(file: FileRead, host: seq<string>)
    requires LoadConfig(file).Ok?
    requires QuickTagsList(LoadConfig(file).value).Ok?
    requires QuickTagsList(LoadConfig(file).value).value.JArray?
    ensures var config := LoadConfig(file).value;
      var items := QuickTagsList(config).value.items;
      var limit := AdditionalLimit(config).value;
      var m := ContextMenu(config, ReviewState, host);
      && (m.Ok? <==> !ShowAdditional(config).value || IsPyInt(limit) || limit.JNull?)
      && (m.Ok? ==>
            && |m.value.quick| == |items|
            && forall i | 0 <= i < |items| ::
                 m.value.quick[i] == Field(items[i].members, NameKey, JNull) && Truthy(m.value.quick[i]))
      && (m.Ok? && m.value.submenu.Some? ==> Ok(m.value.submenu.value) == SliceBy(SortStrings(host), limit))
  {
    LoadedQuickTags(file);
    var config := LoadConfig(file).value;
    var items := QuickTagsList(config).value.items;
    assert Iterate(QuickTagsList(config).value) == Ok(items);
    assert MenuNames(items).Ok?;
    AdditionalTagsAreAllTags(file, host);
  }

  /** The bindings of two runs of items are those of the first followed by
      those of the second. */
  lemma {:induction false} BindingsAppend(a: seq<Json>, b: seq<Json>)
    requires Bindings(a + b).Ok?
    ensures Bindings(a).Ok? && Bindings(b).Ok?
    ensures Bindings(a + b).value == Bindings(a).value + Bindings(b).value
    decreases |a|
  {
    if |a| == 0 {
      assert a + b == b;
    } else {
      var ab := a + b;
      assert ab[0] == a[0] && ab[1..] == a[1..] + b;
      var first := ItemBindings(a[0]).value;
      assert Bindings(ab).value == first + Bindings(a[1..] + b).value;
      BindingsAppend(a[1..], b);
      var mid, last := Bindings(a[1..]).value, Bindings(b).value;
      assert Bindings(a).value == first + mid;
      AppendAssociative(first, mid, last);
    }
  }

  /** Every binding comes from an item: its key sequence is the item's
      truthy `shortcut` and its tag is the item's `name`. */
  lemma {:induction false} BindingsFromItems(items: seq<Json>)
    requires Bindings(items).Ok?
    ensures forall b | b in Bindings(items).value ::
      exists i | 0 <= i < |items| ::
        && b == Binding(Field(items[i].members, ShortcutKey, JNull), Field(items[i].members, NameKey, JNull))
        && Truthy(b.shortcut)
    decreases |items|
  {
    if |items| > 0 {
      BindingsFromItems(items[1..]);
      var first := ItemBindings(items[0]).value;
      forall b | b in Bindings(items).value
        ensures exists i | 0 <= i < |items| ::
          && b == Binding(Field(items[i].members, ShortcutKey, JNull), Field(items[i].members, NameKey, JNull))
          && Truthy(b.shortcut)
      {
        if b in first {
          assert b == first[0];
        } else {
          var j :| 0 <= j < |items[1..]| && b == Binding(Field(items[1..][j].members, ShortcutKey, JNull), Field(items[1..][j].members, NameKey, JNull));
          assert items[1..][j] == items[j + 1];
        }
      }
    }
  }

  /** In review, a loaded configuration whose `quick-tags` is a list binds
      shortcuts without raising, and every bound tag has a truthy name. */
  lemma LoadedShortcuts(file: FileRead)
    requires LoadConfig(file).Ok?
    requires QuickTagsList(LoadConfig(file).value).Ok?
    requires QuickTagsList(LoadConfig(file).value).value.JArray?
    ensures var r := Shortcuts(LoadConfig(file).value, ReviewState);
      && r.Ok?
      && forall b | b in r.value :: Truthy(b.shortcut) && Truthy(b.tagName)
  {
    LoadedQuickTags(file);
    var items := QuickTagsList(LoadConfig(file).value).value.items;
    BindingsFromItems(items);
  }
}

=== FILE: results.dfy ===
/** Failure-compatible result types and the errors the add-on can raise.

    The Python code signals problems by raising exceptions. `ConfigError` is
    the add-on's own exception; every other exception that can escape the
    modelled code (calling `.get` on something that is not a dict, iterating
    a number, slicing with a string, ...) is a `Fault`.
 */
module Results {

  /** Why a `ConfigError` was raised. */
  datatype Problem =
    | FileMissing        // the configuration file does not exist
    | FileUnreadable     // the configuration file is not valid JSON
    | NameRequired       // a quick-tag row has no (or an empty) name
    | VisibleNotBool     // `other-tags.visible` is present but not a bool
    | LimitNotInt        // `other-tags.limit` is present but not an int
    | QuickTagsMissing   // the `quick-tags` list is absent (older variant)

  /** Python exceptions other than `ConfigError` that the modelled code lets escape. */
  datatype FaultKind =
    | AttributeFault     // `.get` called on a value that is not a dict
    | IterationFault     // `for x in v` where `v` is not iterable
    | MembershipFault    // `x in v` where `v` is not a container
    | SliceFault         // `s[:v]` where `v` is neither an int nor None
    | UnmodelledName     // a kept quick-tag name that is truthy but not a string

  datatype Error = ConfigError(problem: Problem) | Fault(kind: FaultKind)

  datatype Option<+T> = None | Some(value: T)

  datatype Result<+T> = Ok(value: T) | Err(error: Error) {

    predicate IsFailure() {
      Err?
    }

    function PropagateFailure<U>(): Result<U>
      requires Err?
    {
      Err(error)
    }

    function Extract(): T
      requires Ok?
    {
      value
    }
  }

  /** A result that carries no value: the outcome of a check or of a reload. */
  datatype Outcome = Pass | Fail(error: Error) {

    predicate IsFailure() {
      Fail?
    }

    function PropagateFailure<U>(): Result<U>
      requires Fail?
    {
      Err(error)
    }
  }
}

=== FILE: slices.dfy ===
/** Python's `s[:stop]`. */
module Slices {
  import opened Results
  import opened Json

  /** `s[:stop]` for an int `stop`: a negative stop counts from the end, and
      a stop past either end is clamped. */
  function SliceTo<T>(s: seq<T>, stop: int): (r: seq<T>)
    ensures r <= s
    ensures 0 <= stop ==> |r| == if stop < |s| then stop else |s|
    ensures stop < 0 ==> |r| == if |s| + stop > 0 then |s| + stop else 0
  {
    if 0 <= stop then
      if stop < |s| then s[..stop] else s
    else if |s| + stop > 0 then s[..|s| + stop]
    else []
  }

  /** `s[:v]` for a decoded value `v`: an int or bool bounds the slice, `None`
      leaves it open, and anything else raises `TypeError`. */
  function SliceBy<T>(s: seq<T>, v: Json): (r: Result<seq<T>>)
    ensures r.Ok? <==> IsPyInt(v) || v.JNull?
    ensures r.Err? ==> r.error == Fault(SliceFault)
    ensures v.JNull? ==> r == Ok(s)
    ensures IsPyInt(v) ==> r == Ok(SliceTo(s, PyInt(v)))
  {
    if IsPyInt(v) then Ok(SliceTo(s, PyInt(v)))
    else if v.JNull? then Ok(s)
    else Err(Fault(SliceFault))
  }

  /** An int bound `n >= 0` keeps the first `n` elements, or all of them. */
  lemma SliceByInt<T>(s: seq<T>, n: int)
    requires 0 <= n
    ensures SliceBy(s, JInt(n)) == Ok(s[..if n < |s| then n else |s|])
  {
    assert s[..|s|] == s;
  }
}

=== FILE: sorting.dfy ===
/** Stable sorting by a string key, as Python's `list.sort(key=...)` and
    `sorted()` do it.

    `SortBy` is an insertion sort. Python uses a different algorithm, but a
    stable sort's output is determined by its input: `StableSortIsUnique`
    shows that any sequence that is sorted by the key and keeps the input
    order among elements with equal keys is `SortBy` of the input. So
    `SortBy` stands for Python's sort on every input.
 */
module Sorting {
  import opened StrOrder

  predicate SortedBy<T>(xs: seq<T>, key: T -> string) {
    forall i, j | 0 <= i < j < |xs| :: LessEq(key(xs[i]), key(xs[j]))
  }

  /** The elements of `xs` whose key is `k`, in their order in `xs`. */
  function Select<T>(xs: seq<T>, key: T -> string, k: string): (r: seq<T>)
    ensures |r| <= |xs|
  {
    if |xs| == 0 then []
    else (if key(xs[0]) == k then [xs[0]] else []) + Select(xs[1..], key, k)
  }

  /** `r` is what a stable sort of `xs` by `key` returns: it is sorted, and for
      every key the elements carrying it appear in `r` exactly as in `xs`. */
  ghost predicate IsStableSortOf<T>(r: seq<T>, xs: seq<T>, key: T -> string) {
    && SortedBy(r, key)
    && forall k :: Select(r, key, k) == Select(xs, key, k)
  }

  /** Puts `x` after every element of the sorted `s` whose key is not greater. */
  function Insert<T>(s: seq<T>, x: T, key: T -> string): (r: seq<T>)
    requires SortedBy(s, key)
    ensures SortedBy(r, key)
    ensures |r| == |s| + 1
    ensures multiset(r) == multiset(s) + multiset{x}
    ensures r[0] == x || (|s| > 0 && r[0] == s[0])
  {
    if |s| == 0 then [x]
    else if Less(key(x), key(s[0])) then
      SortedCons(x, s, key);
      [x] + s
    else
      NotLessIsLessEq(key(x), key(s[0]));
      var rest := Insert(s[1..], x, key);
      SortedCons(s[0], rest, key);
      assert s == [s[0]] + s[1..];
      [s[0]] + rest
  }

  function SortBy<T>(xs: seq<T>, key: T -> string): (r: seq<T>)
    ensures SortedBy(r, key)
    ensures multiset(r) == multiset(xs)
    ensures |r| == |xs|
  {
    if |xs| == 0 then []
    else
      assert xs == xs[..|xs| - 1] + [xs[|xs| - 1]];
      Insert(SortBy(xs[..|xs| - 1], key), xs[|xs| - 1], key)
  }

  lemma SortedCons<T>(h: T, t: seq<T>, key: T -> string)
    requires SortedBy(t, key)
    requires |t| > 0 ==> LessEq(key(h), key(t[0]))
    ensures SortedBy([h] + t, key)
  {
    var s := [h] + t;
    forall i, j | 0 <= i < j < |s|
      ensures LessEq(key(s[i]), key(s[j]))
    {
      if i == 0 && j > 1 {
        LessEqTransitive(key(h), key(t[0]), key(t[j - 1]));
      }
    }
  }

  lemma AppendAssociative<T>(a: seq<T>, b: seq<T>, c: seq<T>)
    ensures a + (b + c) == (a + b) + c
  {
  }

  lemma SelectCons<T>(h: T, t: seq<T>, key: T -> string, k: string)
    ensures Select([h] + t, key, k) == (if key(h) == k then [h] else []) + Select(t, key, k)
  {
    assert ([h] + t)[0] == h;
    assert ([h] + t)[1..] == t;
  }

  lemma {:induction false} SelectAppend<T>(a: seq<T>, b: seq<T>, key: T -> string, k: string)
    ensures Select(a + b, key, k) == Select(a, key, k) + Select(b, key, k)
    decreases |a|
  {
    if |a| == 0 {
      assert a + b == b;
    } else {
      var h := if key(a[0]) == k then [a[0]] else [];
      calc {
        Select(a + b, key, k);
        { assert a + b == [a[0]] + (a[1..] + b); SelectCons(a[0], a[1..] + b, key, k); }
        h + Select(a[1..] + b, key, k);
        { SelectAppend(a[1..], b, key, k); }
        h + (Select(a[1..], key, k) + Select(b, key, k));
        { AppendAssociative(h, Select(a[1..], key, k), Select(b, key, k)); }
        (h + Select(a[1..], key, k)) + Select(b, key, k);
        { assert a == [a[0]] + a[1..]; SelectCons(a[0], a[1..], key, k); }
        Select(a, key, k) + Select(b, key, k);
      }
    }
  }

  lemma HeadSelected<T>(s: seq<T>, key: T -> string)
    requires |s| > 0
    ensures |Select(s, key, key(s[0]))| > 0
  {
  }

  /** In a sorted sequence nothing carries a key below the head's. */
  lemma {:induction false} SelectedAtLeastHead<T>(s: seq<T>, key: T -> string, k: string)
    requires SortedBy(s, key)
    requires |Select(s, key, k)| > 0
    ensures |s| > 0 && LessEq(key(s[0]), k)
    decreases |s|
  {
    if key(s[0]) != k {
      SelectedAtLeastHead(s[1..], key, k);
      LessEqTransitive(key(s[0]), key(s[1]), k);
    }
  }

  /** Inserting `x` appends it to the elements that share its key and leaves
      every other key's elements alone. */
  lemma {:induction false} InsertStable<T>(s: seq<T>, x: T, key: T -> string, k: string)
    requires SortedBy(s, key)
    ensures Select(Insert(s, x, key), key, k)
         == Select(s, key, k) + (if key(x) == k then [x] else [])
    decreases |s|
  {
    var tail := if key(x) == k then [x] else [];
    if |s| == 0 {
      assert Insert(s, x, key) == [x] + [];
      SelectCons(x, [], key, k);
    } else if Less(key(x), key(s[0])) {
      assert Insert(s, x, key) == [x] + s;
      SelectCons(x, s, key, k);
      if key(x) == k {
        if |Select(s, key, k)| > 0 {
          SelectedAtLeastHead(s, key, k);
          LessThenNotLessEq(key(x), key(s[0]));
          assert false;
        }
      }
    } else {
      assert SortedBy(s[1..], key) by {
        forall i, j | 0 <= i < j < |s[1..]|
          ensures LessEq(key(s[1..][i]), key(s[1..][j]))
        {
          assert s[1..][i] == s[i + 1] && s[1..][j] == s[j + 1];
        }
      }
      var rest := Insert(s[1..], x, key);
      var h := if key(s[0]) == k then [s[0]] else [];
      calc {
        Select(Insert(s, x, key), key, k);
        { assert Insert(s, x, key) == [s[0]] + rest; }
        Select([s[0]] + rest, key, k);
        { SelectCons(s[0], rest, key, k); }
        h + Select(rest, key, k);
        { InsertStable(s[1..], x, key, k); }
        h + (Select(s[1..], key, k) + tail);
        { AppendAssociative(h, Select(s[1..], key, k), tail); }
        (h + Select(s[1..], key, k)) + tail;
        { assert s == [s[0]] + s[1..]; SelectCons(s[0], s[1..], key, k); }
        Select(s, key, k) + tail;
      }
    }
  }

  /** The sort keeps the input order among elements with equal keys. */
  lemma {:induction false} SortByStable<T>(xs: seq<T>, key: T -> string, k: string)
    ensures Select(SortBy(xs, key), key, k) == Select(xs, key, k)
    decreases |xs|
  {
    if |xs| > 0 {
      var init, last := xs[..|xs| - 1], xs[|xs| - 1];
      var tail := if key(last) == k then [last] else [];
      calc {
        Select(SortBy(xs, key), key, k);
        Select(Insert(SortBy(init, key), last, key), key, k);
        { InsertStable(SortBy(init, key), last, key, k); }
        Select(SortBy(init, key), key, k) + tail;
        { SortByStable(init, key, k); }
        Select(init, key, k) + tail;
        { SelectCons(last, [], key, k); assert [last] + [] == [last]; }
        Select(init, key, k) + Select([last], key, k);
        { SelectAppend(init, [last], key, k); }
        Select(init + [last], key, k);
        { assert xs == init + [last]; }
        Select(xs, key, k);
      }
    }
  }

  /** Inserting an element no smaller than everything present appends it. */
  lemma {:induction false} InsertLargest<T>(s: seq<T>, x: T, key: T -> string)
    requires SortedBy(s, key)
    requires forall i | 0 <= i < |s| :: LessEq(key(s[i]), key(x))
    ensures Insert(s, x, key) == s + [x]
    decreases |s|
  {
    if |s| > 0 {
      LessEqThenNotLess(key(s[0]), key(x));
      InsertLargest(s[1..], x, key);
      assert s + [x] == [s[0]] + (s[1..] + [x]);
    }
  }

  /** Sorting an already sorted sequence changes nothing. */
  lemma {:induction false} SortBySorted<T>(xs: seq<T>, key: T -> string)
    requires SortedBy(xs, key)
    ensures SortBy(xs, key) == xs
    decreases |xs|
  {
    if |xs| > 0 {
      var init, last := xs[..|xs| - 1], xs[|xs| - 1];
      assert SortedBy(init, key) by {
        forall i, j | 0 <= i < j < |init|
          ensures LessEq(key(init[i]), key(init[j]))
        {
          assert init[i] == xs[i] && init[j] == xs[j];
        }
      }
      assert forall i | 0 <= i < |init| :: LessEq(key(init[i]), key(last)) by {
        forall i | 0 <= i < |init|
          ensures LessEq(key(init[i]), key(last))
        {
          assert init[i] == xs[i];
        }
      }
      calc {
        SortBy(xs, key);
        Insert(SortBy(init, key), last, key);
        { SortBySorted(init, key); }
        Insert(init, last, key);
        { InsertLargest(init, last, key); }
        init + [last];
        { assert xs == init + [last]; }
        xs;
      }
    }
  }

  /** Two sorted sequences that agree on the elements of every key are equal. */
  lemma {:induction false} StableSortIsUnique<T>(a: seq<T>, b: seq<T>, key: T -> string)
    requires SortedBy(a, key) && SortedBy(b, key)
    requires forall k :: Select(a, key, k) == Select(b, key, k)
    ensures a == b
    decreases |a|
  {
    if |a| == 0 || |b| == 0 {
      if |a| != |b| {
        // the head of the non-empty one has no partner in the other
        if |a| == 0 {
          HeadSelected(b, key);
        } else {
          HeadSelected(a, key);
        }
        assert false;
      }
    } else {
      var ka, kb := key(a[0]), key(b[0]);
      assert Select(b, key, kb)[0] == b[0];
      SelectedAtLeastHead(a, key, kb);
      assert Select(a, key, ka)[0] == a[0];
      SelectedAtLeastHead(b, key, ka);
      LessEqAntisymmetric(ka, kb);
      assert a[0] == b[0];
      assert a == [a[0]] + a[1..] && b == [b[0]] + b[1..];
      forall k
        ensures Select(a[1..], key, k) == Select(b[1..], key, k)
      {
        SelectCons(a[0], a[1..], key, k);
        SelectCons(b[0], b[1..], key, k);
        var h := if key(a[0]) == k then [a[0]] else [];
        assert h + Select(a[1..], key, k) == h + Select(b[1..], key, k);
        assert Select(a[1..], key, k) == (h + Select(a[1..], key, k))[|h|..];
        assert Select(b[1..], key, k) == (h + Select(b[1..], key, k))[|h|..];
      }
      StableSortIsUnique(a[1..], b[1..], key);
      assert a == [a[0]] + a[1..] && b == [b[0]] + b[1..];
    }
  }

  /** A sequence is a stable sort of `xs` exactly when it is `SortBy(xs)`. */
  lemma StableSortCharacterized<T>(r: seq<T>, xs: seq<T>, key: T -> string)
    ensures IsStableSortOf(r, xs, key) <==> r == SortBy(xs, key)
  {
    forall k
      ensures Select(SortBy(xs, key), key, k) == Select(xs, key, k)
    {
      SortByStable(xs, key, k);
    }
    if IsStableSortOf(r, xs, key) {
      StableSortIsUnique(r, SortBy(xs, key), key);
    }
  }
}

=== FILE: strorder.dfy ===
/** Python's ordering of `str` values: lexicographic by code point, with a
    proper prefix ordered before any of its extensions. `sorted()` and
    `list.sort(key=...)` on tag names use exactly this order.
 */
module StrOrder {

  /** `a < b` on Python strings. */
  predicate Less(a: string, b: string)
    decreases |a|
  {
    if |a| == 0 then |b| > 0
    else if |b| == 0 then false
    else if a[0] != b[0] then a[0] < b[0]
    else Less(a[1..], b[1..])
  }

  /** `a <= b` on Python strings. */
  predicate LessEq(a: string, b: string) {
    a == b || Less(a, b)
  }

  lemma {:induction false} LessIrreflexive(a: string)
    ensures !Less(a, a)
    decreases |a|
  {
    if |a| > 0 {
      LessIrreflexive(a[1..]);
    }
  }

  lemma {:induction false} LessAsymmetric(a: string, b: string)
    ensures !(Less(a, b) && Less(b, a))
    decreases |a|
  {
    if |a| > 0 && |b| > 0 && a[0] == b[0] {
      LessAsymmetric(a[1..], b[1..]);
    }
  }

  lemma {:induction false} LessTransitive(a: string, b: string, c: string)
    requires Less(a, b) && Less(b, c)
    ensures Less(a, c)
    decreases |a|
  {
    if |a| > 0 && a[0] == b[0] && b[0] == c[0] {
      LessTransitive(a[1..], b[1..], c[1..]);
    }
  }

  /** Any two strings are comparable: the order is total. */
  lemma {:induction false} LessTotal(a: string, b: string)
    ensures Less(a, b) || a == b || Less(b, a)
    decreases |a|
  {
    if |a| > 0 && |b| > 0 && a[0] == b[0] {
      LessTotal(a[1..], b[1..]);
      if a[1..] == b[1..] {
        assert a == [a[0]] + a[1..] && b == [b[0]] + b[1..];
      }
    }
  }

  /** Two strings that differ only in their last character are ordered by
      that character. */
  lemma {:induction false} LessAfterCommonPrefix(p: string, a: char, b: char)
    requires a < b
    ensures Less(p + [a], p + [b])
    decreases |p|
  {
    if |p| > 0 {
      assert (p + [a])[1..] == p[1..] + [a];
      assert (p + [b])[1..] == p[1..] + [b];
      LessAfterCommonPrefix(p[1..], a, b);
    }
  }

  lemma LessEqTransitive(a: string, b: string, c: string)
    requires LessEq(a, b) && LessEq(b, c)
    ensures LessEq(a, c)
  {
    if a != b && b != c {
      LessTransitive(a, b, c);
    }
  }

  lemma LessEqAntisymmetric(a: string, b: string)
    requires LessEq(a, b) && LessEq(b, a)
    ensures a == b
  {
    LessAsymmetric(a, b);
  }

  /** `not a < b` means `b <= a`. */
  lemma NotLessIsLessEq(a: string, b: string)
    requires !Less(a, b)
    ensures LessEq(b, a)
  {
    LessTotal(a, b);
  }

  lemma LessEqThenNotLess(a: string, b: string)
    requires LessEq(a, b)
    ensures !Less(b, a)
  {
    LessIrreflexive(a);
    LessAsymmetric(a, b);
  }

  lemma LessThenNotLessEq(a: string, b: string)
    requires Less(a, b)
    ensures !LessEq(b, a)
  {
    LessIrreflexive(a);
    LessAsymmetric(a, b);
  }
}

=== FILE: tag_list_variant.dfy ===
/** The older `ankiquicktags` add-on: the configuration is a flat list of
    tag names plus two display settings, read without any validation, and
    the review context menu is built from it on demand.

    The file read is a `FileRead`, the host's tag names are a parameter and
    the menu is returned as data.
 */
module TagListVariant {
  import opened Results
  import opened Json
  import opened StrOrder
  import opened Slices
  import opened Tags

  const TagsKey := "tags"
  const ShowOtherKey := "show-other-tags"
  const OtherLimitKey := "other-tags-limit"
  const DefaultShowOther := true
  const DefaultOtherLimit := 10

  /** The host state in which the hook adds anything. */
  const ReviewState := "review"

  /** `_load_config`: whatever the file decodes to is kept, whatever its
      shape; only a missing or undecodable file is an error. */
  function LoadConfig(file: FileRead): (r: Result<Json>)
    ensures r.Ok? <==> file.Decoded?
    ensures r.Ok? ==> r.value == file.doc
    ensures file.NotFound? ==> r == Err(ConfigError(FileMissing))
    ensures file.Undecodable? ==> r == Err(ConfigError(FileUnreadable))
  {
    Load(file)
  }

  /** `_show_tags_other` as the menu hook tests it: the truth value of the
      raw setting, `true` when absent. */
  function ShowOther(config: Json): (r: Result<bool>)
    ensures r.Ok? <==> config.JObject?
    ensures r.Ok? ==> r.value == Truthy(Field(config.members, ShowOtherKey, JBool(DefaultShowOther)))
  {
    var show :- Get(config, ShowOtherKey, JBool(DefaultShowOther));
    Ok(Truthy(show))
  }

  /** `_tags_other_limit`: the raw setting, `10` when absent. */
  function OtherLimit(config: Json): (r: Result<Json>)
    ensures r.Ok? <==> config.JObject?
    ensures r.Err? ==> r.error == Fault(AttributeFault)
    ensures r.Ok? ==>
      r.value == if HasKey(config.members, OtherLimitKey) then Field(config.members, OtherLimitKey, JNull) else JInt(DefaultOtherLimit)
  {
    if config.JObject? && HasKey(config.members, OtherLimitKey) then
      FieldIgnoresDefault(config.members, OtherLimitKey, JNull, JInt(DefaultOtherLimit));
      Get(config, OtherLimitKey, JInt(DefaultOtherLimit))
    else
      Get(config, OtherLimitKey, JInt(DefaultOtherLimit))
  }

  /** `_tags_config`: the raw tag list, empty when absent. */
  function ConfiguredTags(config: Json): (r: Result<Json>)
    ensures r.Ok? <==> config.JObject?
    ensures r.Err? ==> r.error == Fault(AttributeFault)
    ensures r.Ok? ==>
      r.value == if HasKey(config.members, TagsKey) then Field(config.members, TagsKey, JNull) else JArray([])
  {
    if config.JObject? && HasKey(config.members, TagsKey) then
      FieldIgnoresDefault(config.members, TagsKey, JNull, JArray([]));
      Get(config, TagsKey, JArray([]))
    else
      Get(config, TagsKey, JArray([]))
  }

  /** `_tags_other`: the host's tags, sorted, without those found `in` the
      configured list, sorted again. */
  function OtherTags(config: Json, host: seq<string>): (r: Result<seq<string>>)
    ensures r.Ok? ==> forall i, j | 0 <= i < j < |r.value| :: LessEq(r.value[i], r.value[j])
    ensures r.Ok? ==> forall t | t in r.value :: t in host
  {
    var tags :- ConfiguredTags(config);
    var kept :- Unlisted(SortStrings(host), tags);
    SortStringsMembers(host);
    SortStringsMembers(kept);
    Ok(SortStrings(kept))
  }

  /** The configured entries the menu shows: the truthy ones, in order. */
  function KeepTruthy(items: seq<Json>): (r: seq<Json>)
    ensures |r| <= |items|
    ensures forall v :: v in r <==> v in items && Truthy(v)
  {
    if |items| == 0 then []
    else
      assert items == [items[0]] + items[1..];
      (if Truthy(items[0]) then [items[0]] else []) + KeepTruthy(items[1..])
  }

  /** The part of the review context menu the add-on contributes: the
      configured tags, and the other-tags submenu when it is shown. */
  datatype Menu = Menu(tags: seq<Json>, submenu: Option<seq<string>>)

  const NoMenu := Menu([], None)

  /** `hook__build_context_menu`: nothing outside review; otherwise one entry
      per truthy configured tag, then, when shown, the first `limit` other
      tags. */
  function ContextMenu(config: Json, state: string, host: seq<string>): (r: Result<Menu>)
    ensures state != ReviewState ==> r == Ok(NoMenu)
    ensures r.Ok? && state == ReviewState ==>
      && ConfiguredTags(config).Ok?
      && Iterate(ConfiguredTags(config).value).Ok?
      && r.value.tags == KeepTruthy(Iterate(ConfiguredTags(config).value).value)
    ensures r.Ok? && state == ReviewState ==>
      (r.value.submenu.Some? <==> ShowOther(config) == Ok(true))
    ensures r.Ok? && r.value.submenu.Some? ==>
      && OtherTags(config, host).Ok?
      && OtherLimit(config).Ok?
      && SliceBy(OtherTags(config, host).value, OtherLimit(config).value) == Ok(r.value.submenu.value)
    ensures state == ReviewState ==>
      (r.Ok? <==>
        && ConfiguredTags(config).Ok?
        && Iterate(ConfiguredTags(config).value).Ok?
        && (ShowOther(config) == Ok(false)
            || IsPyInt(OtherLimit(config).value)
            || OtherLimit(config).value.JNull?))
  {
    if state != ReviewState then Ok(NoMenu)
    else
      var tags :- ConfiguredTags(config);
      var items :- Iterate(tags);
      var entries := KeepTruthy(items);
      var show := ShowOther(config).value;
      if !show then Ok(Menu(entries, None))
      else
        // `tags` is iterable here, so computing the other tags cannot raise.
        match OtherTags(config, host)
        case Err(e) => Err(e)
        case Ok(other) =>
          var limit := OtherLimit(config).value;
          var cut :- SliceBy(other, limit);
          Ok(Menu(entries, Some(cut)))
  }
}

=== FILE: tag_list_variant_properties.dfy ===
/** Properties of the `ankiquicktags` variant: what its other tags are, that
    the menu keeps the truthy configured tags in order, and what the submenu
    holds. */
module TagListVariantProperties {
  import opened Results
  import opened Json
  import opened Slices
  import opened Tags
  import opened TagListVariant

  /** The settings are not type-checked: an absent one takes its default,
      a present one is taken as it is. */
  lemma SettingsDefaults(members: seq<(string, Json)>)
    ensures !HasKey(members, ShowOtherKey) ==> ShowOther(JObject(members)) == Ok(true)
    ensures !HasKey(members, OtherLimitKey) ==> OtherLimit(JObject(members)) == Ok(JInt(10))
    ensures HasKey(members, ShowOtherKey) ==>
      ShowOther(JObject(members)) == Ok(Truthy(Field(members, ShowOtherKey, JNull)))
    ensures HasKey(members, OtherLimitKey) ==>
      OtherLimit(JObject(members)) == Ok(Field(members, OtherLimitKey, JNull))
  {
    if HasKey(members, ShowOtherKey) {
      FieldIgnoresDefault(members, ShowOtherKey, JNull, JBool(true));
    }
    if HasKey(members, OtherLimitKey) {
      FieldIgnoresDefault(members, OtherLimitKey, JNull, JInt(10));
    }
  }

  /** With a configured list, the other tags are the known tags that are not
      among its strings, sorted; a configured non-string never hides a tag. */
  lemma OtherTagsOfList(config: Json, host: seq<string>, items: seq<Json>)
    requires ConfiguredTags(config) == Ok(JArray(items))
    ensures OtherTags(config, host) == Ok(SortStrings(Without(host, StringItems(items))))
  {
    SortedWithout(host, StringItems(items));
  }

  /** A known tag is an other tag exactly when the configured list does not
      hold it. */
  lemma OtherTagsMembership(config: Json, host: seq<string>, items: seq<Json>, t: string)
    requires ConfiguredTags(config) == Ok(JArray(items))
    ensures OtherTags(config, host).Ok?
    ensures t in OtherTags(config, host).value <==> t in host && JString(t) !in items
  {
    OtherTagsOfList(config, host, items);
    SortStringsMembers(Without(host, StringItems(items)));
  }

  /** The menu entries of two runs of configured tags are those of the
      first run followed by those of the second. */
  lemma {:induction false} KeepTruthyAppend(a: seq<Json>, b: seq<Json>)
    ensures KeepTruthy(a + b) == KeepTruthy(a) + KeepTruthy(b)
    decreases |a|
  {
    if |a| == 0 {
      assert a + b == b;
    } else {
      assert (a + b)[0] == a[0];
      assert (a + b)[1..] == a[1..] + b;
      KeepTruthyAppend(a[1..], b);
    }
  }

  /** A single configured tag is shown exactly when it is truthy. */
  lemma KeepTruthyOne(v: Json)
    ensures KeepTruthy([v]) == if Truthy(v) then [v] else []
  {
    assert [v][1..] == [];
  }

  /** In review, with a configured list, the submenu shown for an int limit
      `n >= 0` is the first `n` other tags in sorted order (all of them when
      there are fewer). */
  lemma SubmenuIsFirstLimit(config: Json, host: seq<string>, items: seq<Json>, n: int)
    requires ConfiguredTags(config) == Ok(JArray(items))
    requires ShowOther(config) == Ok(true)
    requires OtherLimit(config) == Ok(JInt(n))
    requires 0 <= n
    ensures var others := SortStrings(Without(host, StringItems(items)));
      var m := ContextMenu(config, ReviewState, host);
      && m.Ok?
      && m.value.tags == KeepTruthy(items)
      && m.value.submenu == Some(others[..if n < |others| then n else |others|])
  {
    var others := SortStrings(Without(host, StringItems(items)));
    OtherTagsCut(config, host, items, n);
    assert Iterate(JArray(items)) == Ok(items);
  }

  lemma OtherTagsCut(config: Json, host: seq<string>, items: seq<Json>, n: int)
    requires ConfiguredTags(config) == Ok(JArray(items))
    requires 0 <= n
    ensures var others := SortStrings(Without(host, StringItems(items)));
      && OtherTags(config, host).Ok?
      && SliceBy(OtherTags(config, host).value, JInt(n)) == Ok(others[..if n < |others| then n else |others|])
  {
    OtherTagsOfList(config, host, items);
    SliceByInt(SortStrings(Without(host, StringItems(items))), n);
  }

  /** An empty configuration shows no configured tags and the first ten
      known tags, sorted. */
  lemma EmptyConfigMenu(host: seq<string>)
    ensures var sorted := SortStrings(host);
      ContextMenu(JObject([]), ReviewState, host)
      == Ok(Menu([], Some(sorted[..if 10 < |sorted| then 10 else |sorted|])))
  {
    var config := JObject([]);
    assert ConfiguredTags(config) == Ok(JArray([]));
    assert StringItems([]) == [];
    WithoutNothing(host);
    SubmenuIsFirstLimit(config, host, [], 10);
  }

  /** A `tags` dict whose key is repeated shows that key once, as the dict
      `json.load` builds keeps it once. */
  lemma DuplicateKeyShownOnce(host: seq<string>)
    ensures var tags := JObject([("a", JInt(1)), ("a", JInt(2))]);
      var config := JObject([(TagsKey, tags), (ShowOtherKey, JBool(false))]);
      ContextMenu(config, ReviewState, host) == Ok(Menu([JString("a")], None))
  {
    var tags := JObject([("a", JInt(1)), ("a", JInt(2))]);
    var config := JObject([(TagsKey, tags), (ShowOtherKey, JBool(false))]);
    DuplicateConfigRead();
    DuplicateKeyIterated();
    HiddenSubmenu(config, host, tags, [JString("a")]);
    KeepTruthyOne(JString("a"));
  }

  /** With the submenu hidden, the menu is the truthy configured entries. */
  lemma HiddenSubmenu(config: Json, host: seq<string>, tags: Json, items: seq<Json>)
    requires ConfiguredTags(config) == Ok(tags)
    requires Iterate(tags) == Ok(items)
    requires ShowOther(config) == Ok(false)
    ensures ContextMenu(config, ReviewState, host) == Ok(Menu(KeepTruthy(items), None))
  {
  }

  /** The configuration of `DuplicateKeyShownOnce` holds the dict and hides
      the submenu. */
  lemma DuplicateConfigRead()
    ensures var tags := JObject([("a", JInt(1)), ("a", JInt(2))]);
      var config := JObject([(TagsKey, tags), (ShowOtherKey, JBool(false))]);
      ConfiguredTags(config) == Ok(tags) && ShowOther(config) == Ok(false)
  {
    var tags := JObject([("a", JInt(1)), ("a", JInt(2))]);
    var cm := [(TagsKey, tags), (ShowOtherKey, JBool(false))];
    assert cm[..1] == [(TagsKey, tags)];
    assert ShowOtherKey[0] != TagsKey[0];
    assert Field(cm[..1], TagsKey, JArray([])) == tags;
    assert Field(cm, TagsKey, JArray([])) == tags;
  }

  /** Iterating the dict with the key `a` twice yields `a` once. */
  lemma DuplicateKeyIterated()
    ensures Iterate(JObject([("a", JInt(1)), ("a", JInt(2))])) == Ok([JString("a")])
  {
    var members := [("a", JInt(1)), ("a", JInt(2))];
    assert members[..1][..0] == [];
    assert Keys(members[..1]) == ["a"];
    assert Keys(members) == ["a"];
    var items := Iterate(JObject(members)).value;
    assert |items| == 1 && items[0] == JString("a");
    assert items == [JString("a")];
  }
}

=== FILE: tags.dfy ===
/** The `Tag` record and the tag-name helpers shared by the add-on and its
    older variants. */
module Tags {
  import opened Results
  import opened Json
  import opened StrOrder
  import opened Sorting

  /** A tag with its shortcut. Equality is field by field, as for the
      dataclass. The shortcut is whatever the configuration held: the add-on
      does not check its type. */
  datatype Tag = Tag(name: string, shortcut: Json)

  function Name(t: Tag): string {
    t.name
  }

  function Names(tags: seq<Tag>): (r: seq<string>)
    ensures |r| == |tags|
    ensures forall i | 0 <= i < |tags| :: r[i] == tags[i].name
  {
    seq(|tags|, i requires 0 <= i < |tags| => tags[i].name)
  }

  function Ident(s: string): string {
    s
  }

  /** `sorted(xs)` on a list of strings. */
  function SortStrings(xs: seq<string>): (r: seq<string>)
    ensures forall i, j | 0 <= i < j < |r| :: LessEq(r[i], r[j])
    ensures multiset(r) == multiset(xs)
  {
    SortBy(xs, Ident)
  }

  /** Sorting keeps exactly the strings it was given. */
  lemma SortStringsMembers(xs: seq<string>)
    ensures forall t :: t in SortStrings(xs) <==> t in xs
  {
    var r := SortStrings(xs);
    forall t
      ensures t in r <==> t in xs
    {
      assert t in r <==> t in multiset(r);
      assert t in xs <==> t in multiset(xs);
    }
  }

  /** `[t for t in xs if t not in names]`. */
  function Without(xs: seq<string>, names: seq<string>): (r: seq<string>)
    ensures forall t :: t in r <==> t in xs && t !in names
  {
    if |xs| == 0 then []
    else
      assert xs == [xs[0]] + xs[1..];
      (if xs[0] in names then [] else [xs[0]]) + Without(xs[1..], names)
  }

  /** Filtering drops every copy of a listed name and keeps every copy of
      any other string. */
  lemma {:induction false} WithoutCounts(xs: seq<string>, names: seq<string>, t: string)
    ensures multiset(Without(xs, names))[t] == if t in names then 0 else multiset(xs)[t]
    decreases |xs|
  {
    if |xs| > 0 {
      WithoutCounts(xs[1..], names, t);
      assert xs == [xs[0]] + xs[1..];
    }
  }

  lemma {:induction false} SelectIdentCounts(xs: seq<string>, k: string)
    ensures Select(xs, Ident, k) == seq(multiset(xs)[k], _ => k)
    decreases |xs|
  {
    if |xs| > 0 {
      SelectIdentCounts(xs[1..], k);
      assert xs == [xs[0]] + xs[1..];
      var n := multiset(xs[1..])[k];
      if xs[0] == k {
        assert seq(n + 1, _ => k) == [k] + seq(n, _ => k);
      }
    }
  }

  /** Sorting strings depends only on how often each string occurs. */
  lemma SortStringsByCount(a: seq<string>, b: seq<string>)
    requires multiset(a) == multiset(b)
    ensures SortStrings(a) == SortStrings(b)
  {
    var sa, sb := SortStrings(a), SortStrings(b);
    forall k
      ensures Select(sa, Ident, k) == Select(sb, Ident, k)
    {
      SelectIdentCounts(sa, k);
      SelectIdentCounts(sb, k);
    }
    StableSortIsUnique(sa, sb, Ident);
  }

  /** The strings among some decoded values, in order. */
  function StringItems(items: seq<Json>): (r: seq<string>)
    ensures forall t :: t in r <==> JString(t) in items
  {
    if |items| == 0 then []
    else
      assert items == [items[0]] + items[1..];
      (if items[0].JString? then [items[0].s] else []) + StringItems(items[1..])
  }

  /** `[t for t in xs if t not in container]`: the `in` test is Python's, so
      it depends on what the container is, and it raises on a container that
      supports no membership test, unless there is nothing to test. */
  function Unlisted(xs: seq<string>, container: Json): (r: Result<seq<string>>)
    ensures r.Ok? <==> |xs| == 0 || container.JArray? || container.JString? || container.JObject?
    ensures r.Err? ==> r.error == Fault(MembershipFault)
    ensures r.Ok? ==> forall t | t in r.value :: t in xs
    ensures r.Ok? ==> forall t | t in xs :: t in r.value <==> Contains(container, t) == Ok(false)
    ensures container.JArray? ==> r == Ok(Without(xs, StringItems(container.items)))
  {
    if |xs| == 0 then Ok([])
    else
      var found :- Contains(container, xs[0]);
      // The first test succeeded, so the container supports the others.
      var rest := Unlisted(xs[1..], container).value;
      assert xs == [xs[0]] + xs[1..];
      Ok((if found then [] else [xs[0]]) + rest)
  }

  /** Filtering by no names keeps everything. */
  lemma {:induction false} WithoutNothing(xs: seq<string>)
    ensures Without(xs, []) == xs
    decreases |xs|
  {
    if |xs| > 0 {
      WithoutNothing(xs[1..]);
      assert xs == [xs[0]] + xs[1..];
    }
  }

  /** Sorting a sorted list of strings again changes nothing. */
  lemma SortStringsTwice(xs: seq<string>)
    ensures SortStrings(SortStrings(xs)) == SortStrings(xs)
  {
    SortStringsByCount(SortStrings(xs), xs);
  }

  /** Filtering a list and filtering its sorted copy keep the same strings,
      as often, so their sorted results agree. */
  lemma SortedWithout(xs: seq<string>, names: seq<string>)
    ensures SortStrings(Without(SortStrings(xs), names)) == SortStrings(Without(xs, names))
  {
    var a, b := Without(SortStrings(xs), names), Without(xs, names);
    forall t
      ensures multiset(a)[t] == multiset(b)[t]
    {
      WithoutCounts(SortStrings(xs), names, t);
      WithoutCounts(xs, names, t);
    }
    assert multiset(a) == multiset(b);
    SortStringsByCount(a, b);
  }
}

=== FILE: variants_compared.dfy ===
/** The add-on and the `ankiquicktags` variant cut the same sorted list of
    other tags at different places: the add-on keeps `limit + 1` names, the
    variant `limit`. */
module VariantsCompared {
  import opened Results
  import opened Json
  import opened Slices
  import opened Tags
  import Config
  import ConfigProperties
  import TagListVariant
  import TagListVariantProperties

  /** For the same known tags, the same quick-tag names and the same limit
      `n >= 0`, the variant's submenu is a prefix of the add-on's other tags,
      and it is one name shorter whenever more than `n` tags are left. */
  lemma AddonKeepsOneMore(config: Json, all: seq<string>, items: seq<Json>, n: int)
    requires TagListVariant.ConfiguredTags(config) == Ok(JArray(items))
    requires TagListVariant.ShowOther(config) == Ok(true)
    requires TagListVariant.OtherLimit(config) == Ok(JInt(n))
    requires 0 <= n
    ensures var addon := Names(Config.OtherTags(all, StringItems(items), n));
      var m := TagListVariant.ContextMenu(config, TagListVariant.ReviewState, all);
      && m.Ok? && m.value.submenu.Some?
      && m.value.submenu.value <= addon
      && (n < |Without(all, StringItems(items))| ==> |addon| == |m.value.submenu.value| + 1)
  {
    var names := StringItems(items);
    var w := SortStrings(Without(all, names));
    var cut := SliceTo(w, n + 1);
    AddonCut(all, names, n);
    TagListVariantProperties.SubmenuIsFirstLimit(config, all, items, n);
    OneShorter(w, n);
  }

  /** Cutting at `n` gives a prefix of cutting at `n + 1`, one shorter when
      more than `n` elements are there. */
  lemma OneShorter(w: seq<string>, n: int)
    requires 0 <= n
    ensures var sub := w[..if n < |w| then n else |w|];
      && sub <= SliceTo(w, n + 1)
      && (n < |w| ==> |SliceTo(w, n + 1)| == |sub| + 1)
  {
  }

  /** The add-on's other-tag names are the sorted, unlisted host tags cut
      to `n + 1`. */
  lemma AddonCut(all: seq<string>, names: seq<string>, n: int)
    ensures var w := SortStrings(Without(all, names));
      && |w| == |Without(all, names)|
      && Names(Config.OtherTags(all, names, n)) == SliceTo(w, n + 1)
  {
    var w := SortStrings(Without(all, names));
    assert |multiset(w)| == |multiset(Without(all, names))|;
    assert Names(Config.Untagged(SliceTo(w, n + 1))) == SliceTo(w, n + 1);
  }
}
